=== FILE: README.md ===
# GoRide admin dashboard — a Dafny model of its client logic

GoRide Manager is a single-page admin dashboard for a motorbike rental
service. An administrator logs in, and the dashboard then lists, creates,
edits and deletes motorbikes, users, blog posts and promotions, and changes
the status of rentals. All of this goes through a REST API.

This project models the client logic that decides what the dashboard does,
and proves properties of that model:

- the session store kept in browser storage (`Session`);
- how each API request is built: URL, headers, endpoint and method (`Api`);
- the login decision (`Login`);
- the shell that switches between the login screen and the pages (`Shell`);
- the toast queue (`Toasts`);
- one controller per entity page (`Motorbikes`, `Users`, `Blogs`,
  `Promotions`, `Rentals`), built on a shared create/edit/delete shape
  (`Crud`);
- the paging and the pagination bar the list pages share (`Pagination`);
- the dashboard's statistics (`Dashboard`).

Some JavaScript semantics are written out explicitly:

- Truthiness and the `||`, `??` and `x || undefined` idioms are in `Values`.
- The server's response envelope and the three orders in which pages read
  its `error` and `message` fields are in `Envelopes`.
- `split`, `join` and `trim` are in `Strings`.
- The records and payloads exchanged with the server are in `Schema`.

Every asynchronous handler is modelled as one atomic step. It takes the page
state and the reply the awaited call produced, and returns the next state
together with its effects, in order:

- the request it sent;
- the toasts it raised;
- whether it reloads the list.

A reply is either an envelope `{success, data?, error?, message?}` or a
transport error. A transport error stands for anything that makes the
awaited call throw: a network failure, or a body that is not JSON. Where a
page needs a value the model cannot compute, the caller supplies it as a
parameter:

- toast ids;
- the `NEXT_PUBLIC_API_URL` setting;
- the browser's date conversions.

## Model

| member | source | states |
|---|---|---|
| Values.Or | app/components/LoginPage.tsx:26-27 | `a \|\| b` is `a` when `a` is a non-empty string, otherwise `b`; the result is truthy iff either operand is |
| Values.OrElse | app/components/MotorbikesPage.tsx:91-100 | `x \|\| default` is the truthy value or the default, and never empty when the default is not |
| Values.NonEmpty | app/components/MotorbikesPage.tsx:116 | `s \|\| undefined` drops exactly the empty string, is truthy exactly when `s` is non-empty, and reads back as `s` through `\|\| ''` |
| Values.OrElseNonEmpty | app/components/MotorbikesPage.tsx:91-116 | a field dropped from a payload reads back as "" when the record is reopened, and a kept field reads back unchanged |
| Envelopes.FailureText | app/components/RentalsPage.tsx:61-63 | a failed envelope is reported with the server's text chosen in the page's order (error then message, error only, or message then error), else with the fallback; never empty when the fallback is not |
| Envelopes.ChainsAgreeOnOneField | app/components/LoginPage.tsx:43-44 | the login's message-first order and the pages' error-first order differ only when the server fills in both fields |
| Strings.Split | app/components/MotorbikesPage.tsx:119 | `split(c)` yields at least one piece, and no piece contains the separator |
| Strings.JoinSplit | app/components/MotorbikesPage.tsx:119 | joining the pieces of a split with the separator gives back the original text |
| Strings.SplitJoin | app/components/MotorbikesPage.tsx:97 | splitting a join undoes it when no element contains the separator |
| Strings.SplitJoinPadded | app/components/MotorbikesPage.tsx:97 | splitting a list joined with `", "` on `','` gives the first element, then each later element with one space in front |
| Strings.Trim | app/components/MotorbikesPage.tsx:119 | `trim` leaves no white space at either end, never grows the text, keeps only characters of the input, keeps a text with a non-space character non-empty, and leaves a trimmed text unchanged |
| Strings.TrimRun | app/components/MotorbikesPage.tsx:119 | what `trim` returns is one contiguous run of the input, the one that starts right after the leading white space |
| Strings.TrimDropsSpace | app/components/MotorbikesPage.tsx:119 | everything `trim` removes, before and after that run, is white space |
| Strings.TrimSpaced | app/components/MotorbikesPage.tsx:119 | trimming removes any run of leading white space in front of trimmed text |
| Schema.CountOr | app/components/UsersPage.tsx:28 | `total \|\| d` is the server's count when it is a non-zero number, else `d`; the result is always one of the two, and zero only when `d` is zero |
| Session.GetAccessToken | app/utils/api.ts:8-11 | null without a window; otherwise the stored access token, or null when none is stored |
| Session.GetRefreshToken | app/utils/api.ts:13-16 | null without a window; otherwise the stored refresh token, or null when none is stored |
| Session.GetUser | app/utils/api.ts:33-37 | the cached profile is returned iff there is a window and a non-empty entry is stored, and it is that entry |
| Session.IsLoggedIn | app/utils/api.ts:39-41 | logged in iff there is a window and a non-empty access token is stored |
| Session.SetTokens | app/utils/api.ts:18-21 | writes exactly the access and refresh keys with the given values; every other entry is untouched |
| Session.SetUser | app/utils/api.ts:29-31 | writes exactly the user key; every other entry is untouched |
| Session.ClearTokens | app/utils/api.ts:23-27 | removes exactly the three session keys; every other entry is untouched |
| Session.NoWindowReadsNull | app/utils/api.ts:8-37 | without a window all three getters return null and nobody is logged in, whatever is stored |
| Session.SetTokensThenGet | app/utils/api.ts:18-21 | with a window, after `setTokens` the getters return the new tokens, the cached profile is unchanged, and the session is logged in iff the access token is non-empty |
| Session.ClearThenGet | app/utils/api.ts:23-27 | after `clearTokens` all three getters return null and nobody is logged in |
| Session.SetUserThenGet | app/utils/api.ts:29-37 | with a window, a stored profile reads back as itself, and the tokens are unchanged |
| Session.ClearTokensIdempotent | app/utils/api.ts:23-27 | clearing twice is clearing once |
| Api.ApiBase | app/utils/api.ts:5 | the base URL is the configured value when it is non-empty, else the fixed default |
| Api.Headers | app/utils/api.ts:45-53 | JSON content type unless the caller overrides it; Authorization present iff there is a token or the caller sent one; a token always wins as `Bearer <token>`; every other caller header is kept, and nothing else is added |
| Api.BuildRequest | app/utils/api.ts:44-58 | URL is base + endpoint; the method and body are passed through; a logged-in session always sends `Bearer` with the stored access token |
| Api.UsersGetAll | app/utils/api.ts:93-95 | `GET /users` whatever page, limit and search are given |
| Api.MotorbikesGetAll | app/utils/api.ts:113-115 | `GET /motorbikes` whatever query is given |
| Api.RentalsGetAll | app/utils/api.ts:139-141 | `GET /rentals/all` whatever page, limit and status are given |
| Api.BlogsGetAll | app/utils/api.ts:156 | `GET /blogs` with no body |
| Api.PromotionsGetAll | app/utils/api.ts:180 | `GET /promotions` with no body |
| Api.UpdateStatus | app/utils/api.ts:145-149 | `PUT` to the rental's item path plus `/status`, carrying only the status |
| Api.ResourceCalls | app/utils/api.ts:112-133 | for a client with all four calls (motorbikes here, and blogs and promotions alike): reading, updating and deleting one entity use the same item path, which differs from the collection path create uses; create and update send the same body; the four calls use four different methods |
| Api.AuthCalls | app/utils/api.ts:67-87 | login is a POST of the credentials to the path whose segments are `auth` and `login`; register and refresh are POSTs carrying their input at two other paths; the profile read is a GET without a body |
| Api.ItemSegments | app/utils/api.ts:96-106 | an item path splits into exactly the resource name and the id, so the id can be read back |
| Api.CollectionSegments | app/utils/api.ts:119-123 | a collection path is the resource name as its single segment |
| Api.StatusSegments | app/utils/api.ts:145-149 | the status path is the rental's item path plus one `status` segment |
| Toasts.Add | app/components/Toast.tsx:51-54 | appends exactly one toast with the given id and text at the end; earlier toasts are unchanged; the kind defaults to info |
| Toasts.Remove | app/components/Toast.tsx:56-58 | keeps exactly the toasts with another id, each as often as before |
| Toasts.RemoveAppend | app/components/Toast.tsx:56-58 | removal works on each part of a queue separately, so the order of what is kept is preserved |
| Toasts.RemoveAbsent | app/components/Toast.tsx:57 | removing an id no toast carries leaves the queue unchanged |
| Toasts.AddThenRemove | app/components/Toast.tsx:51-58 | with a fresh id, adding a toast and then dismissing it restores the previous queue |
| Toasts.RemoveTwice | app/components/Toast.tsx:56-58 | dismissing the same id twice is dismissing it once |
| Login.StoreTokens | app/components/LoginPage.tsx:25-31 | with a window and both chosen tokens truthy, the session reads back exactly those tokens and is logged in; otherwise nothing is written; no entry but the two token keys is ever touched, and the cached profile is kept |
| Login.AccessOf | app/components/LoginPage.tsx:26 | the access token is the camel-case field when it is truthy, else the snake-case one; it is truthy exactly when either is |
| Login.RefreshOf | app/components/LoginPage.tsx:27 | the refresh token is the camel-case field when it is truthy, else the snake-case one; it is truthy exactly when either is |
| Login.Submit | app/components/LoginPage.tsx:16-51 | the login request is sent; a transport failure shows the connection message; a failed envelope shows message, then error, then the fallback; a delivered reply admits iff no user is sent or the user is ADMIN; a rejected non-admin gets the access-denied banner, with the tokens already written; an admitted admin's profile is cached; the spinner is off on every path |
| Login.RoleGate | app/components/LoginPage.tsx:33-42 | states what the predicates `Login.IsAdmin` and `Login.Admits` decide: on a delivered reply, no user object admits, and a user is admitted exactly when its role is the exact text ADMIN; a user with no role is turned away |
| Login.TokensWrittenIff | app/components/LoginPage.tsx:24-31 | with a window: when the reply succeeded with data and both chosen tokens are truthy, the getters read back exactly those tokens; otherwise both token entries are untouched |
| Login.RejectedKeepsTokens | app/components/LoginPage.tsx:29-38 | a rejected non-admin with tokens is not admitted and sees the access-denied banner, yet the session reads as logged in and no profile is cached |
| Login.FailureWritesNothing | app/components/LoginPage.tsx:43-47 | a failed envelope or a transport failure writes nothing, admits nobody and always shows a non-empty banner |
| Login.SubmitGated | app/components/LoginPage.tsx:29-42 | corrected handler: admits exactly the same replies, and leaves the storage untouched whenever it does not admit |
| Login.GatedAgreesWhenAdmitted | app/components/LoginPage.tsx:24-45 | the corrected handler shows the same form and admits the same replies as the code, and is identical to it on every admitted reply |
| Shell.Mount | app/page.tsx:17-20 | the first render is checking, signed out, on the dashboard, with no toasts |
| Shell.CheckAuth | app/page.tsx:22-25 | after the check, authenticated equals the session's logged-in state and checking is off; nothing else changes |
| Shell.LoginSucceeded | app/page.tsx:27-30 | sets authenticated and appends one success toast; page, storage and checking are unchanged |
| Shell.Logout | app/page.tsx:32-37 | clears the session, signs out, returns to the dashboard and appends one info toast |
| Shell.Navigate | app/page.tsx:39-41 | sets the active page and changes nothing else |
| Shell.Notify | app/page.tsx:43-45 | a page's toast is appended to the queue and nothing else changes |
| Shell.Dismiss | app/page.tsx:60 | a dismissed toast is removed from the queue and nothing else changes |
| Shell.SubmitLogin | app/page.tsx:57-64 | the shell signs in, with one more toast, exactly when the login form admits; otherwise only the storage the form wrote changes |
| Shell.RenderPage | app/page.tsx:69-85 | each of the five entity page ids renders its page, and every other id renders the dashboard |
| Shell.RenderPageName | app/page.tsx:69-85 | navigating by a page's own id renders that page |
| Shell.ViewOf | app/page.tsx:47-85 | the spinner shows while checking; otherwise the login screen shows whenever signed out, whatever page is selected; otherwise the layout shows with the rendered page |
| Shell.LogoutThenLogin | app/page.tsx:32-37 | after logout the login screen shows and the session is cleared; the next login lands on the dashboard |
| Shell.RejectedLoginSurvivesReload | app/components/LoginPage.tsx:29-38 | a rejected non-admin stays on the login screen, but a page reload's check opens the dashboard for that user |
| Shell.GatedRejectionKeepsSession | app/components/LoginPage.tsx:29-38 | with the corrected handler a rejected login leaves nothing behind: a reload shows what it showed before the attempt |
| Pagination.TotalPages | app/components/RentalsPage.tsx:44 | `ceil(total / 10)`: the fewest ten-row pages that hold `total` rows; zero exactly when there are no rows |
| Pagination.Clamp | app/components/RentalsPage.tsx:45 | a `slice` index is clamped into the sequence, and indexes already in range are kept |
| Pagination.Slice | app/components/RentalsPage.tsx:45 | `slice(start, end)` is the sub-sequence between the two indexes when they are in range, and never longer than the input |
| Pagination.PageRows | app/components/RentalsPage.tsx:45 | a page holds at most ten rows, is the contiguous run starting at `(page-1)*10`, and is empty past the last page |
| Pagination.PagesArePrefix | app/components/RentalsPage.tsx:45 | the first `k` pages, one after the other, are exactly the first `10k` rows |
| Pagination.PagesCoverAll | app/components/RentalsPage.tsx:43-45 | all pages, one after the other, are exactly the whole list: nothing is lost or repeated |
| Pagination.BarOf | app/components/RentalsPage.tsx:98-166 | the bar shows only when the list is not loading, the page has rows, and there is more than one page; previous is disabled at page 1 or less, next at the last page or beyond; the buttons are 1 to min(pages, 5) |
| Pagination.MoveStaysInRange | app/components/RentalsPage.tsx:157-166 | an enabled click on the bar (previous, next or a numbered button) never goes below page 1, and from an existing page it only reaches existing pages |
| Crud.OpenCreate | app/components/MotorbikesPage.tsx:82-86 | the modal opens on the empty form with no id |
| Crud.OpenEdit | app/components/MotorbikesPage.tsx:88-103 | the modal opens on the entity's id and the form built from it |
| Crud.Close | app/components/MotorbikesPage.tsx:350 | cancelling closes the modal and keeps the form and id |
| Crud.SaveCall | app/components/MotorbikesPage.tsx:126-130 | a save updates (PUT) exactly when there is a non-empty editing id, and then addresses that entity, whose id is the last segment of the path; otherwise it creates (POST) at the collection path; the body is the payload either way |
| Crud.Save | app/components/MotorbikesPage.tsx:105-144 | an incomplete form only warns and sends nothing; otherwise the call is sent; success shows the create or update text, closes the modal and reloads; a failure keeps the modal and shows an error toast (connection text, or the chain's text); saving is off after every path that sent |
| Crud.SaveRetry | app/components/MotorbikesPage.tsx:132-143 | after a failed save, saving again ends exactly where a first attempt with the later reply would |
| Crud.ConfirmDelete | app/components/MotorbikesPage.tsx:146-160 | no target: nothing happens; success clears the target, toasts and reloads; any failure keeps the target and shows `error \|\| 'Xóa thất bại'` or the connection text |
| Crud.DeleteRetry | app/components/MotorbikesPage.tsx:146-160 | a failed delete can be confirmed again with the same result as a first attempt |
| Crud.DeleteOnce | app/components/MotorbikesPage.tsx:146-160 | after a successful delete, confirming again sends nothing |
| Motorbikes.LoadCall | app/components/MotorbikesPage.tsx:60-66 | the list request is `GET /motorbikes` whatever page, filters and search are set |
| Motorbikes.FiltersNotSent | app/components/MotorbikesPage.tsx:57-76 | changing the search or either filter does not change the request the list is loaded with |
| Motorbikes.Load | app/components/MotorbikesPage.tsx:67-70 | only a successful reply with data replaces the list, by `motorbikes \|\| []`, and the total, by `total \|\| 0`; nothing else changes |
| Motorbikes.SetSearch | app/components/MotorbikesPage.tsx:188 | a search change resets the page to 1 and changes nothing else |
| Motorbikes.SetFilterType | app/components/MotorbikesPage.tsx:192 | a type filter change resets the page to 1 and changes nothing else |
| Motorbikes.SetFilterStatus | app/components/MotorbikesPage.tsx:198 | a status filter change resets the page to 1 and changes nothing else |
| Motorbikes.TotalPages | app/components/MotorbikesPage.tsx:162 | the fewest ten-row pages that hold the total |
| Motorbikes.DropEmpty | app/components/MotorbikesPage.tsx:119 | `filter(Boolean)` keeps exactly the non-empty pieces, never more than it was given, and every piece when none is empty |
| Motorbikes.DropEmptyAppend | app/components/MotorbikesPage.tsx:119 | `filter` works on each part of a list separately, so kept pieces stay in order, each as often as it occurs |
| Motorbikes.DropEmptyOne | app/components/MotorbikesPage.tsx:119 | a single piece is kept exactly when it is non-empty |
| Motorbikes.TrimAll | app/components/MotorbikesPage.tsx:119 | each piece is trimmed, one for one |
| Motorbikes.ImagesOf | app/components/MotorbikesPage.tsx:119 | the URLs sent are exactly the non-empty trimmed comma-separated pieces of the field, at most one per piece; every one is non-empty, trimmed and comma-free; an empty field sends none |
| Motorbikes.ImagesRoundTrip | app/components/MotorbikesPage.tsx:97-119 | for non-empty, trimmed, comma-free URLs, showing the list joined with `", "` and saving it splits back to exactly the same list |
| Motorbikes.TrimPieces | app/components/MotorbikesPage.tsx:97-119 | the trimmed pieces of a joined URL list are the URLs themselves |
| Motorbikes.ImagesNormalised | app/components/MotorbikesPage.tsx:97-119 | whatever was typed, a second save of the reopened record sends the same URLs as the first |
| Motorbikes.FormOf | app/components/MotorbikesPage.tsx:88-103 | the edit form copies each field with `''` defaults, SCOOTER for a missing type, AVAILABLE for a missing status, and the images joined with `", "` |
| Motorbikes.PayloadOf | app/components/MotorbikesPage.tsx:112-123 | name, type, plate, price and status are sent as typed; empty description, year, fuel capacity and engine size are left out and the others kept; the images are well-formed URLs |
| Motorbikes.ReopenComplete | app/components/MotorbikesPage.tsx:88-109 | states what the gate predicate `Motorbikes.Complete` decides: a stored motorbike reopens as a form that passes the required-field gate exactly when it has a name, a licence plate and a price, and then those are sent non-empty |
| Motorbikes.EditUnchanged | app/components/MotorbikesPage.tsx:88-123 | for a record whose image URLs are non-empty, trimmed and comma-free, reopening it and saving it untouched sends back exactly its images, its name, and its description when it had one |
| Motorbikes.OpenCreate | app/components/MotorbikesPage.tsx:82-86 | the modal opens on the empty form (SCOOTER, AVAILABLE) with no id; the list state is untouched |
| Motorbikes.OpenEdit | app/components/MotorbikesPage.tsx:88-103 | the modal opens on the record's id and its edit form; the list state is untouched |
| Motorbikes.Save | app/components/MotorbikesPage.tsx:105-144 | missing name, plate or price only warns and sends nothing; otherwise the payload is sent by create or update; success closes the modal and reloads; an envelope failure shows `error \|\| message \|\| 'Có lỗi xảy ra'` |
| Motorbikes.EmptyFormRefused | app/components/MotorbikesPage.tsx:105-109 | saving a freshly opened create form sends nothing and changes nothing |
| Motorbikes.AskDelete | app/components/MotorbikesPage.tsx:256 | the delete button arms the dialog with that id and changes nothing else |
| Motorbikes.CancelDelete | app/components/MotorbikesPage.tsx:368 | cancelling disarms the dialog and changes nothing else |
| Motorbikes.ConfirmDelete | app/components/MotorbikesPage.tsx:146-160 | with a target, `DELETE` is sent to its path; success clears the target and reloads; any failure keeps the state, and an envelope failure shows `error \|\| 'Xóa thất bại'` |
| Users.LoadCall | app/components/UsersPage.tsx:25 | the list request is `GET /users` whatever page and search are set |
| Users.SetSearch | app/components/UsersPage.tsx:108 | a search change resets the page to 1 and changes nothing else |
| Users.SearchNotSent | app/components/UsersPage.tsx:22-35 | typing a search returns to page 1 but loads the list with the same request |
| Users.TotalPages | app/components/UsersPage.tsx:86 | `Math.ceil(total / 10)`: the fewest ten-row pages that hold the user total, and more than one page, so the pager at line 168 is drawn, exactly when there are more than ten users |
| Users.Load | app/components/UsersPage.tsx:26-29 | only a successful reply with data replaces the users, by `users \|\| []`, and the total, by `total \|\| 0` |
| Users.FormOf | app/components/UsersPage.tsx:41-49 | name, phone and address are copied with `''` defaults, and the role with CUSTOMER as its default, so it is never empty |
| Users.OpenEdit | app/components/UsersPage.tsx:41-49 | the modal holds the user and the form built from it; nothing else changes |
| Users.Close | app/components/UsersPage.tsx:220 | cancelling empties the modal and changes nothing else |
| Users.Update | app/components/UsersPage.tsx:51-68 | with no user in the modal nothing happens; otherwise the form is sent as it is to that user's path, with no required field; success closes the modal and reloads; a failure keeps it and shows `error \|\| 'Cập nhật thất bại'` or the connection text; saving ends off |
| Users.EditUnchanged | app/components/UsersPage.tsx:41-55 | reopening a user and saving untouched sends, to that user's path, each non-empty name, phone and address the user had, and the role or CUSTOMER |
| Users.UpdateRetry | app/components/UsersPage.tsx:51-68 | after a failed update, saving again sends the same request |
| Users.AskDelete | app/components/UsersPage.tsx:159 | the delete button arms the dialog with that id and changes nothing else |
| Users.ConfirmDelete | app/components/UsersPage.tsx:70-84 | with a target, `DELETE /users/<id>` is sent; success clears the target and reloads; any failure leaves the state as it was |
| Blogs.Load | app/components/BlogsPage.tsx:37-49 | a successful reply replaces the list by `data \|\| []`; anything else leaves it |
| Blogs.FormOf | app/components/BlogsPage.tsx:59-70 | each field is copied with `''` as its default, and the author with Admin as its default |
| Blogs.ReopenComplete | app/components/BlogsPage.tsx:59-76 | states what the gate predicate `Blogs.Complete` decides: a stored blog reopens as a form that passes the gate exactly when it has a title, content and an image |
| Blogs.OpenCreate | app/components/BlogsPage.tsx:53-57 | the modal opens on the empty form (author Admin) with no id |
| Blogs.OpenEdit | app/components/BlogsPage.tsx:59-70 | the modal opens on the blog's id and its form |
| Blogs.Save | app/components/BlogsPage.tsx:72-98 | missing title, content or image only warns; otherwise the form itself is sent by create or update and saving is off afterwards; success shows the create or update text, closes and reloads; a failure keeps the modal open and does not reload, and shows `error \|\| 'Có lỗi xảy ra'` or the connection text |
| Blogs.EmptyFormRefused | app/components/BlogsPage.tsx:19-26 | saving a freshly opened create form sends nothing and changes nothing |
| Blogs.EditUnchanged | app/components/BlogsPage.tsx:59-85 | reopening a complete blog and saving untouched sends its own fields to its path |
| Blogs.AskDelete | app/components/BlogsPage.tsx:174 | the delete button arms the dialog with that id and changes nothing else |
| Blogs.ConfirmDelete | app/components/BlogsPage.tsx:100-114 | with a target, `DELETE /blogs/<id>` is sent; success clears the target and reloads; any failure leaves the state as it was |
| Promotions.Load | app/components/PromotionsPage.tsx:39-51 | a successful reply replaces the list by `data \|\| []`; anything else leaves it |
| Promotions.FormOf | app/components/PromotionsPage.tsx:61-73 | texts are copied with `''` defaults; a stored `isActive` is kept, false included, and only a missing one becomes true; a stored date becomes its calendar day, and a missing date an empty field |
| Promotions.ReopenComplete | app/components/PromotionsPage.tsx:61-79 | states what the gate predicate `Promotions.Complete` decides: a stored promotion reopens as a form that passes the gate exactly when it has a title, a description and an image |
| Promotions.DateField | app/components/PromotionsPage.tsx:88-89 | an empty date is left out; a filled one is converted, and the save fails where the conversion throws |
| Promotions.PayloadOf | app/components/PromotionsPage.tsx:82-90 | the texts and `isActive` are sent as typed; an empty badge and empty dates are left out; building fails exactly when a filled date cannot be converted |
| Promotions.OpenCreate | app/components/PromotionsPage.tsx:55-59 | the modal opens on the empty form (active) with no id |
| Promotions.OpenEdit | app/components/PromotionsPage.tsx:61-73 | the modal opens on the promotion's id and its form |
| Promotions.Save | app/components/PromotionsPage.tsx:75-110 | missing title, description or image only warns; a date that cannot be converted shows the connection text and sends nothing; otherwise the payload is sent by create or update; saving is off after every path past the gate; success shows the create or update text, closes and reloads; a failure keeps the modal, does not reload, and shows `error \|\| 'Có lỗi xảy ra'` or the connection text |
| Promotions.EmptyFormRefused | app/components/PromotionsPage.tsx:20-28 | saving a freshly opened create form sends nothing and changes nothing |
| Promotions.EditUnchanged | app/components/PromotionsPage.tsx:61-97 | reopening a complete dateless promotion and saving untouched sends its texts, its badge only if it had one, and its `isActive` (an explicit false included) |
| Promotions.AskDelete | app/components/PromotionsPage.tsx:194 | the delete button arms the dialog with that id and changes nothing else |
| Promotions.ConfirmDelete | app/components/PromotionsPage.tsx:112-126 | with a target, `DELETE /promotions/<id>` is sent; success clears the target and reloads; any failure leaves the state as it was |
| Rentals.CountOnlyReplyIsNotAList | app/components/RentalsPage.tsx:25 | as written, a `{total: 0}` reply stores the wrapper object, not a list |
| Rentals.RowsOfAgrees | app/components/RentalsPage.tsx:25 | corrected extraction: it agrees with the code wherever the code stores a list (the `rentals` field, or the bare array), and gives [] where the code stores the wrapper object |
| Rentals.Load | app/components/RentalsPage.tsx:20-32 | only a successful reply with data replaces the list, with the corrected rows; nothing else changes |
| Rentals.LoadCall | app/components/RentalsPage.tsx:23 | the list request is `GET /rentals/all` with no body |
| Rentals.FilterBy | app/components/RentalsPage.tsx:39-41 | the filtered list holds exactly the rentals with that status, and is no longer than the list |
| Rentals.FilterAppend | app/components/RentalsPage.tsx:39-41 | filtering a concatenation filters each part in turn, so the original order is kept |
| Rentals.FilterIdempotent | app/components/RentalsPage.tsx:39-41 | filtering twice by a status is filtering once |
| Rentals.Filtered | app/components/RentalsPage.tsx:39-41 | the "all" tab shows the whole list; any other tab shows exactly the rentals with that status |
| Rentals.Total | app/components/RentalsPage.tsx:43 | the count shown is the number of rentals on the current tab, never more than all rentals |
| Rentals.TotalPages | app/components/RentalsPage.tsx:44 | the fewest ten-row pages that hold the tab's rentals, and none when there are none |
| Rentals.Rows | app/components/RentalsPage.tsx:45 | the table shows the current page's contiguous run of at most ten of the tab's rentals, starting at row `(page-1)*10`, and nothing on a page past the last |
| Rentals.StatusChangeStrandsPage | app/components/RentalsPage.tsx:20-106 | as written, a reload keeps the page number; when it leaves the tab with exactly the rows of the pages before the current one, the page shows no rows and no bar although the tab still has rentals |
| Rentals.FitPage | app/components/RentalsPage.tsx:44-45 | corrected: a page past the last falls back to the last page and nothing else changes; a tab with rentals then always shows rows, and the bar shows exactly when there is more than one page |
| Rentals.Reloaded | app/components/RentalsPage.tsx:20-45 | corrected reload: the new list with the page fitted to it, so a tab with rentals never shows an empty page |
| Rentals.SetFilter | app/components/RentalsPage.tsx:89 | a tab click sets the filter, resets the page to 1 and changes nothing else |
| Rentals.SetFilterShowsFirstPage | app/components/RentalsPage.tsx:89 | after a tab click the table shows the first (up to ten) rows of that tab |
| Rentals.PagesShowTab | app/components/RentalsPage.tsx:39-45 | paging through a tab shows every one of its rentals exactly once, in order |
| Rentals.OpenStatusModal | app/components/RentalsPage.tsx:47-50 | the modal holds the rental's id and current status, and the choice starts at the current status |
| Rentals.ChooseStatus | app/components/RentalsPage.tsx:192 | picking a status changes only the choice |
| Rentals.OpenedModalDisabled | app/components/RentalsPage.tsx:203 | states what the predicate `Rentals.UpdateDisabled` (the button's `disabled` expression) decides: a freshly opened modal cannot submit; when not saving, it becomes submittable exactly when another status is chosen |
| Rentals.EnabledSendsChange | app/components/RentalsPage.tsx:203 | a live update button always sends a status other than the rental's current one, to that rental |
| Rentals.UpdateStatus | app/components/RentalsPage.tsx:52-69 | with no modal nothing happens; otherwise the chosen status is sent to the rental's status path; success closes the modal and reloads; a failure keeps the modal and shows `error \|\| message \|\| 'Cập nhật thất bại'` or the connection text; saving ends off |
| Rentals.UpdateRetry | app/components/RentalsPage.tsx:52-69 | after a failed update, trying again sends the same request |
| Dashboard.Calls | app/components/DashboardPage.tsx:26-32 | the five requests are GETs without a body to the motorbike, user, all-rental, blog and promotion lists |
| Dashboard.CountAvailable | app/components/DashboardPage.tsx:40 | one motorbike counts one exactly when its status is AVAILABLE (with `CountAvailableAppend` this fixes every count); the count is at most the list length, zero exactly when none is available, and the full length exactly when all are |
| Dashboard.CountAvailableAppend | app/components/DashboardPage.tsx:40 | the available count adds up over any split of the motorbike list |
| Dashboard.SumPrices | app/components/DashboardPage.tsx:42-44 | one rental adds its `totalPrice`, or 0 when it has none; with `SumAppend` this fixes the sum of every list. With no negative price, the sum is non-negative and at least every single price |
| Dashboard.Revenue | app/components/DashboardPage.tsx:42-44 | one rental adds its price when it is COMPLETED and nothing otherwise; with `RevenueAppend` this fixes the revenue of every list as the sum of the completed prices. Revenue is zero when no rental is COMPLETED; with no negative price it is non-negative and at least each completed rental's price |
| Dashboard.SumAppend | app/components/DashboardPage.tsx:42-44 | the price sum of a concatenation is the sum of the parts' sums |
| Dashboard.RevenueAppend | app/components/DashboardPage.tsx:42-44 | revenue over completed rentals adds up over any split of the rental list |
| Dashboard.RevenueNonNegative | app/components/DashboardPage.tsx:42-44 | with no negative prices, revenue is never negative |
| Dashboard.SumNonNegative | app/components/DashboardPage.tsx:42-44 | a sum of non-negative prices is non-negative |
| Dashboard.Load | app/components/DashboardPage.tsx:24-63 | if any request throws, the counters are kept and loading stops; otherwise pending counts the PENDING rentals, revenue sums the COMPLETED ones, blog and promotion totals are list lengths, the other totals fall back to list lengths, and recent is the first min(5, n) rentals in order |
| Dashboard.SuccessIgnored | app/components/DashboardPage.tsx:34-38 | every counter reads `res?.data` whatever `success` says: marking every reply as failed, with the same data, changes nothing on the dashboard |
| Dashboard.BareRentalsUncounted | app/components/DashboardPage.tsx:36 | the dashboard reads only `data.rentals`, so a bare rental array, which the rental page accepts, gives zero pending, zero revenue and no recent rentals here |
| Dashboard.FirstLoadFailureShowsZeros | app/components/DashboardPage.tsx:58-62 | on the first load, any request that throws leaves all counters at zero and no recent rentals, with loading off |

## Left out

- HTTP transport, `fetch` and `response.json()`: a call's outcome is a parameter, either an envelope or a transport error.
- `JSON.stringify` and `JSON.parse`: the cached profile is an opaque non-empty text, and request bodies are typed values.
- Writes to storage without a window: these would throw in the code. The model lets them proceed, and every read without a window still returns null.
- React rendering, CSS and the purely presentational components (header, sidebar, layout): they do not decide anything the model states.
- The `useEffect` reload that fires when a page's `page`, `search` or filter state changes (for example app/components/MotorbikesPage.tsx:76-80): `SetSearch`, the filter setters and the pagination moves change state only and emit no `Reload`. The reload after a save or a delete is modelled as the `Reload` effect.
- The search text, the type and status filters and the page number of the motorbike and user pages: the pages pass them to `getAll`, but the client's `getAll` drops its arguments (app/utils/api.ts:93-95 and 113-115), so the list fetched is always the server's default one. The model keeps this as written and states no query format, because none is defined on the client side.
- Rentals.Load: the rental page's list is stored as `RowsOf` extracts it, which is `[]` where the code stores the wrapper object of a reply with no `rentals` field (the second finding). The page number is kept on a reload, as in the code; `Rentals.Reloaded` is the corrected reload that fits the page to the new list.
- Api.Create, Api.Update and Api.Delete are defined for every resource, but the code has no `create` for users and only `getAll`, `getById` and `updateStatus` for rentals (api.ts:92-150). No handler in the model builds one of those missing calls.
- Loading spinners of the entity pages: they only drive rendering. The dashboard's `loading` flag is kept, because its end state is promised.
- Overlapping asynchronous handlers and the ordering of reloads: each handler runs to completion against one reply.
- The toast auto-dismiss timer and the clock-and-random toast ids: callers supply ids, and dismissal is the explicit `Dismiss`.
- `parseFloat` and `parseInt` on prices and years: the model keeps the text typed into the form. Revenue is summed over integer prices, so floating point and NaN are not modelled.
- Promotions.FormOf: the stored-date to calendar-day conversion is a parameter, and a stored date that the browser cannot parse (where `openEdit` would throw) is not modelled.
- Promotions.PayloadOf: the ISO conversion is a parameter that may fail. The format of the dates it produces is not modelled.
- Motorbikes.EditUnchanged: stated for records whose image URLs are already non-empty, trimmed and comma-free. Other URLs are normalised by a save, as `ImagesNormalised` states.
- `getById`, `register`, `getProfile` and `refreshToken`: they are modelled as calls, but no page uses them, so no handler consumes their replies.
- Formatting helpers (`formatPrice`, `formatDate`, `formatDateTime`) and the status label maps: they are display only.

## Findings

| source | as written | input that shows it | evidently intended | confidence | as-written member | corrected member |
|---|---|---|---|---|---|---|
| app/components/LoginPage.tsx:29-38 | the tokens are stored before the ADMIN role check, and a rejected user's tokens stay stored | a successful login reply for a user with role CUSTOMER, carrying both tokens | a user turned away by the role check leaves no session behind; as written, reloading the page signs that user in | high (not executed) | Shell.RejectedLoginSurvivesReload | Shell.GatedRejectionKeepsSession |
| app/components/RentalsPage.tsx:25 | `res.data.rentals \|\| res.data \|\| []` stores the wrapper object when it has no `rentals`, and the final `[]` can never be reached | a successful reply whose data is `{total: 0}` | an empty list when the reply carries no rentals; as written, the later `filter` and `slice` calls run on a non-list | medium (not executed) | Rentals.CountOnlyReplyIsNotAList | Rentals.RowsOfAgrees |
| app/components/RentalsPage.tsx:43-45 | a reload keeps the page number, and rows and bar show only when `!loading && rentals.length !== 0`, so a page past the new last page shows the empty state with no bar to leave it | tab PENDING with 11 pending rentals, on page 2; the 11th is set to CONFIRMED and the list reloads with 10 pending | the page falls back to the last page that has rows, here page 1 | medium (not executed) | Rentals.StatusChangeStrandsPage | Rentals.FitPage |

The corrected definitions:

- `Rentals.RowsOf` is the corrected list extraction. It is the only one that
  another member uses: `Rentals.Load`.
- `Rentals.Reloaded` is the rental reload with the page fitted by `Rentals.FitPage`.
- `Login.SubmitGated` is the corrected login handler.

The shell keeps the login handler as written, so that the first finding
can be shown end to end.

=== FILE: api.dfy ===
/**
 The API client: the pure part of every remote call. A resource operation
 names an endpoint, a method and a body; `BuildRequest` turns that into the
 URL and headers `fetch` is given. Sending it and parsing the answer is the
 transport, which the model replaces by a `Reply` parameter.
 */
module Api {
  import opened Values
  import opened Schema
  import Session
  import Strings

  const DefaultBase := "https://prn-232-be.vercel.app/api/v1"
  const JsonType := "application/json"
  const ContentType := "Content-Type"
  const Authorization := "Authorization"

  datatype Method = GET | POST | PUT | DELETE

  /** The value handed to `JSON.stringify` as the request body. */
  datatype Body =
    | CredentialsBody(credentials: Credentials)
    | RegistrationBody(registration: Registration)
    | RefreshBody(refresh_token: string)
    | StatusBody(status: string)
    | MotorbikeBody(motorbike: MotorbikePayload)
    | UserBody(user: UserForm)
    | BlogBody(blog: BlogFields)
    | PromotionBody(promotion: PromotionPayload)

  /** What a resource operation asks `apiRequest` for. */
  datatype Call = Call(endpoint: string, verb: Method, body: Option<Body>)

  /** What `fetch` is called with. */
  datatype Request = Request(url: string, verb: Method, headers: map<string, string>, body: Option<Body>)

  /** `NEXT_PUBLIC_API_URL || default`. */
  function ApiBase(env: Option<string>): (base: string)
    ensures base != ""
    ensures Truthy(env) ==> base == env.value
    ensures !Truthy(env) ==> base == DefaultBase
  {
    OrElse(env, DefaultBase)
  }

  /** The header map: JSON content type unless the caller overrides it, the
      caller's headers, and a bearer token that wins over any caller value. */
  function Headers(token: Option<string>, extra: map<string, string>): (h: map<string, string>)
    ensures ContentType in h
    ensures h[ContentType] == (if ContentType in extra then extra[ContentType] else JsonType)
    ensures Authorization in h <==> Truthy(token) || Authorization in extra
    ensures Truthy(token) ==> h[Authorization] == "Bearer " + token.value
    ensures !Truthy(token) && Authorization in extra ==> h[Authorization] == extra[Authorization]
    ensures forall k :: k in extra && k != Authorization ==> k in h && h[k] == extra[k]
    ensures forall k :: k in h ==> k in extra || k == ContentType || k == Authorization
  {
    var base := map[ContentType := JsonType] + extra;
    if Truthy(token) then base[Authorization := "Bearer " + token.value] else base
  }

  /** `apiRequest(endpoint, options)` up to the `fetch`: the token is read from
      the session at call time. */
  function BuildRequest(s: Session.Storage, env: Option<string>, call: Call, extra: map<string, string>): (r: Request)
    ensures r.url == ApiBase(env) + call.endpoint
    ensures r.verb == call.verb && r.body == call.body
    ensures Session.IsLoggedIn(s) ==> Authorization in r.headers
    ensures Session.IsLoggedIn(s) ==> r.headers[Authorization] == "Bearer " + s.items[Session.AccessKey]
    ensures !Session.IsLoggedIn(s) ==> (Authorization in r.headers <==> Authorization in extra)
  {
    Request(ApiBase(env) + call.endpoint, call.verb, Headers(Session.GetAccessToken(s), extra), call.body)
  }

  // The entities behind the resource clients, and their paths.

  datatype Resource = Users | Motorbikes | Rentals | Blogs | Promotions

  function Name(res: Resource): string {
    match res
    case Users => "users"
    case Motorbikes => "motorbikes"
    case Rentals => "rentals"
    case Blogs => "blogs"
    case Promotions => "promotions"
  }

  function Collection(res: Resource): string {
    "/" + Name(res)
  }

  function Item(res: Resource, id: string): string {
    "/" + Name(res) + "/" + id
  }

  function GetById(res: Resource, id: string): Call {
    Call(Item(res, id), GET, None)
  }

  function Create(res: Resource, body: Body): Call {
    Call(Collection(res), POST, Some(body))
  }

  function Update(res: Resource, id: string, body: Body): Call {
    Call(Item(res, id), PUT, Some(body))
  }

  function Delete(res: Resource, id: string): Call {
    Call(Item(res, id), DELETE, None)
  }

  // Operations with their own endpoints.

  function Login(email: string, password: string): Call {
    Call("/auth/login", POST, Some(CredentialsBody(Credentials(email, password))))
  }

  function Register(data: Registration): Call {
    Call("/auth/register", POST, Some(RegistrationBody(data)))
  }

  function Profile(): Call {
    Call("/auth/profile", GET, None)
  }

  function Refresh(refreshToken: string): Call {
    Call("/auth/refresh", POST, Some(RefreshBody(refreshToken)))
  }

  /** `userApi.getAll(page, limit, search)`: the arguments are not used. */
  function UsersGetAll(page: Option<int>, limit: Option<int>, search: Option<string>): (c: Call)
    ensures c == Call(Collection(Users), GET, None)
  {
    Call("/users", GET, None)
  }

  /** `motorbikeApi.getAll(params)`: the query is not used. */
  function MotorbikesGetAll(page: Option<int>, limit: Option<int>, vehicleType: Option<string>,
                            status: Option<string>, search: Option<string>): (c: Call)
    ensures c == Call(Collection(Motorbikes), GET, None)
  {
    Call("/motorbikes", GET, None)
  }

  /** `rentalApi.getAll(page, limit, status)`: always the whole list. */
  function RentalsGetAll(page: Option<int>, limit: Option<int>, status: Option<string>): (c: Call)
    ensures c == Call(Item(Rentals, "all"), GET, None)
  {
    Call("/rentals/all", GET, None)
  }

  function BlogsGetAll(): (c: Call)
    ensures c == Call(Collection(Blogs), GET, None)
  {
    Call("/blogs", GET, None)
  }

  function PromotionsGetAll(): (c: Call)
    ensures c == Call(Collection(Promotions), GET, None)
  {
    Call("/promotions", GET, None)
  }

  /** `rentalApi.updateStatus(id, status)`: PUT `{status}` to the item's status path. */
  function UpdateStatus(id: string, status: string): (c: Call)
    ensures c.verb == PUT && c.body == Some(StatusBody(status))
    ensures c.endpoint == Item(Rentals, id) + "/status"
  {
    Call("/rentals/" + id + "/status", PUT, Some(StatusBody(status)))
  }

  /** The four calls of a resource client: reading, updating and deleting one
      entity address the same path, creating and updating send the same
      body, and no two of them share a method. */
  lemma ResourceCalls(res: Resource, id: string, body: Body)
    ensures GetById(res, id).endpoint == Update(res, id, body).endpoint == Delete(res, id).endpoint
    ensures Create(res, body).endpoint == Collection(res) != Item(res, id)
    ensures Create(res, body).body == Update(res, id, body).body == Some(body)
    ensures GetById(res, id).body.None? && Delete(res, id).body.None?
    ensures |{GetById(res, id).verb, Create(res, body).verb, Update(res, id, body).verb, Delete(res, id).verb}| == 4
  {
    assert |Item(res, id)| > |Collection(res)|;
  }

  /** The authentication calls: the three that change state are POSTs under
      `/auth` carrying their input, the profile read is a bare GET. */
  lemma AuthCalls(email: string, password: string, data: Registration, token: string)
    ensures Strings.Split(Login(email, password).endpoint, '/') == ["", "auth", "login"]
    ensures Login(email, password).verb == POST && Login(email, password).body == Some(CredentialsBody(Credentials(email, password)))
    ensures Register(data).verb == POST && Register(data).body == Some(RegistrationBody(data))
    ensures Refresh(token).verb == POST && Refresh(token).body.value.refresh_token == token
    ensures Profile().verb == GET && Profile().body.None?
    ensures Register(data).endpoint != Login(email, password).endpoint && Refresh(token).endpoint != Login(email, password).endpoint
    ensures Register(data).endpoint != Refresh(token).endpoint
  {
    var xs := ["", "auth", "login"];
    assert Strings.Join(xs, "/") == "/auth/login" by {
      assert xs[1..][1..] == ["login"];
      assert Strings.Join(xs[1..], "/") == "auth" + "/" + "login";
      assert Strings.Join(xs, "/") == "" + "/" + ("auth" + "/" + "login");
    }
    Strings.SplitJoin(xs, '/');
  }

  /** The path segments of an endpoint: an item path addresses its resource
      and its id and nothing else, so the id can be read back from it. */
  lemma ItemSegments(res: Resource, id: string)
    requires '/' !in id
    ensures Strings.Split(Item(res, id), '/') == ["", Name(res), id]
  {
    var name := Name(res);
    assert '/' !in name;
    var xs := ["", name, id];
    assert Strings.Join(xs, "/") == Item(res, id) by {
      assert xs[1..][1..] == [id];
      assert Strings.Join(xs[1..], "/") == name + "/" + id;
      assert Strings.Join(xs, "/") == "" + "/" + (name + "/" + id);
    }
    Strings.SplitJoin(xs, '/');
  }

  /** A collection path is the resource's single segment. */
  lemma CollectionSegments(res: Resource)
    ensures Strings.Split(Collection(res), '/') == ["", Name(res)]
  {
    var name := Name(res);
    assert '/' !in name;
    var ys := ["", name];
    assert Strings.Join(ys, "/") == Collection(res) by {
      assert ys[1..] == [name];
      assert Strings.Join(ys, "/") == "" + "/" + name;
    }
    Strings.SplitJoin(ys, '/');
  }

  /** The status path of a rental adds exactly one segment after its id. */
  lemma StatusSegments(id: string)
    requires '/' !in id
    ensures Strings.Split(UpdateStatus(id, "").endpoint, '/') == ["", "rentals", id, "status"]
  {
    var xs := ["", "rentals", id, "status"];
    assert Strings.Join(xs, "/") == UpdateStatus(id, "").endpoint by {
      assert xs[1..][1..][1..] == ["status"];
      assert Strings.Join(xs[2..], "/") == id + "/" + "status";
      assert Strings.Join(xs[1..], "/") == "rentals" + "/" + (id + "/" + "status");
      assert Strings.Join(xs, "/") == "" + "/" + ("rentals" + "/" + (id + "/" + "status"));
    }
    Strings.SplitJoin(xs, '/');
  }
}

=== FILE: blogs.dfy ===
/**
 The blog page: the whole blog list, the create/edit modal over a six-field
 form that is sent as it is, and the delete confirmation.
 */
module Blogs {
  import opened Values
  import opened Envelopes
  import opened Schema
  import Api
  import Crud
  import Toasts

  const DefaultAuthor := "Admin"

  const EmptyForm := BlogFields("", "", "", "", "", DefaultAuthor)

  const Texts := Crud.Texts(
    "Vui lòng điền đầy đủ tiêu đề, nội dung và hình ảnh", "Tạo bài viết mới thành công!",
    "Cập nhật bài viết thành công!", "Có lỗi xảy ra", ErrorOnly, "Xóa bài viết thành công!")

  datatype State = State(blogs: seq<Blog>, editor: Crud.Editor<BlogFields>, deleteId: Option<string>)

  function Initial(): State {
    State([], Crud.Editor(false, None, EmptyForm, false), None)
  }

  /** `loadBlogs`: a successful reply replaces the list (an absent list reads
      as empty); anything else keeps the old one. */
  function Load(s: State, reply: Reply<seq<Blog>>): (r: State)
    ensures !Succeeded(reply) ==> r == s
    ensures Succeeded(reply) ==> r.blogs == reply.envelope.data.GetOr([])
    ensures Succeeded(reply) && reply.envelope.data.None? ==> r.blogs == []
    ensures r.(blogs := s.blogs) == s
  {
    if Succeeded(reply) then s.(blogs := reply.envelope.data.GetOr([])) else s
  }

  /** `openEdit(blog)`: missing fields become empty, a missing author Admin. */
  function FormOf(b: Blog): (f: BlogFields)
    ensures f.title == OrElse(b.title, "") && f.description == OrElse(b.description, "")
    ensures f.content == OrElse(b.content, "") && f.image == OrElse(b.image, "")
    ensures f.tag == OrElse(b.tag, "")
    ensures f.author == OrElse(b.author, DefaultAuthor) && f.author != ""
  {
    BlogFields(OrElse(b.title, ""), OrElse(b.description, ""), OrElse(b.content, ""),
               OrElse(b.image, ""), OrElse(b.tag, ""), OrElse(b.author, DefaultAuthor))
  }

  /** The required-field gate: title, content and image. */
  predicate Complete(f: BlogFields) {
    f.title != "" && f.content != "" && f.image != ""
  }

  /** A stored blog reopens as a form that passes the gate exactly when it
      has a title, content and an image. */
  lemma ReopenComplete(b: Blog)
    ensures Complete(FormOf(b)) <==> Truthy(b.title) && Truthy(b.content) && Truthy(b.image)
  {
  }

  function OpenCreate(s: State): (r: State)
    ensures r.editor.showModal && r.editor.editingId.None? && r.editor.form == EmptyForm
    ensures r.(editor := s.editor) == s
  {
    s.(editor := Crud.OpenCreate(s.editor, EmptyForm))
  }

  function OpenEdit(s: State, b: Blog): (r: State)
    ensures r.editor.showModal && r.editor.editingId == Some(b.id) && r.editor.form == FormOf(b)
    ensures r.(editor := s.editor) == s
  {
    s.(editor := Crud.OpenEdit(s.editor, b.id, FormOf(b)))
  }

  /** `handleSave` on this page: the payload is a copy of the form. */
  function Save(s: State, reply: Reply<Blog>): (r: Crud.Step<State>)
    ensures r.state.(editor := s.editor) == s
    ensures !Complete(s.editor.form) ==>
              r.state == s && r.effects == [Crud.Notify(Texts.incomplete, Toasts.Warning)]
    ensures Complete(s.editor.form) ==>
              |r.effects| >= 2
              && r.effects[0] == Crud.Send(Crud.SaveCall(Api.Blogs, s.editor.editingId, Api.BlogBody(s.editor.form)))
    ensures Complete(s.editor.form) ==> !r.state.editor.saving
    ensures Complete(s.editor.form) && Succeeded(reply) ==>
              !r.state.editor.showModal && Crud.Reload in r.effects
              && r.effects[1] == Crud.Notify(if Truthy(s.editor.editingId) then Texts.updated else Texts.created, Toasts.Success)
    ensures Complete(s.editor.form) && !Succeeded(reply) ==>
              r.state.editor.showModal == s.editor.showModal && Crud.Reload !in r.effects
    ensures Complete(s.editor.form) && reply.TransportError? ==>
              r.effects[1] == Crud.Notify(Crud.Unreachable, Toasts.Error)
    ensures Complete(s.editor.form) && reply.Received? && !reply.envelope.success ==>
              r.effects[1] == Crud.Notify(FailureText(ErrorOnly, reply.envelope, "Có lỗi xảy ra"), Toasts.Error)
  {
    var e := Crud.Save(Api.Blogs, Texts, s.editor, Complete(s.editor.form), Api.BlogBody(s.editor.form), reply);
    Crud.Step(s.(editor := e.editor), e.effects)
  }

  /** Saving a freshly opened create form only warns: the empty form never
      reaches the server. */
  lemma EmptyFormRefused(s: State, reply: Reply<Blog>)
    ensures !Crud.Sends(Save(OpenCreate(s), reply).effects)
    ensures Save(OpenCreate(s), reply).state == OpenCreate(s)
  {
  }

  /** Opening a blog that has every field and saving it untouched sends the
      blog's own fields to its item path. */
  lemma EditUnchanged(s: State, b: Blog, reply: Reply<Blog>)
    requires b.id != "" && Truthy(b.title) && Truthy(b.content) && Truthy(b.image)
    ensures var body := Api.BlogBody(BlogFields(b.title.value, OrElse(b.description, ""), b.content.value,
                                                b.image.value, OrElse(b.tag, ""), OrElse(b.author, DefaultAuthor)));
            Save(OpenEdit(s, b), reply).effects[0] == Crud.Send(Api.Update(Api.Blogs, b.id, body))
  {
  }

  function AskDelete(s: State, id: string): (r: State)
    ensures r.deleteId == Some(id) && r.(deleteId := s.deleteId) == s
  {
    s.(deleteId := Some(id))
  }

  /** `handleDelete` on this page. */
  function ConfirmDelete(s: State, reply: Reply<Blog>): (r: Crud.Step<State>)
    ensures r.state.(deleteId := s.deleteId) == s
    ensures !Truthy(s.deleteId) ==> r.state == s && r.effects == []
    ensures Truthy(s.deleteId) ==> |r.effects| >= 2 && r.effects[0] == Crud.Send(Api.Delete(Api.Blogs, s.deleteId.value))
    ensures Truthy(s.deleteId) && Succeeded(reply) ==> r.state.deleteId.None? && Crud.Reload in r.effects
    ensures !Succeeded(reply) ==> r.state == s
  {
    var d := Crud.ConfirmDelete(Api.Blogs, Texts, s.deleteId, reply);
    Crud.Step(s.(deleteId := d.deleteId), d.effects)
  }
}

=== FILE: crud.dfy ===
/**
 The controller shape the entity pages share: a create/edit modal over a form
 (`showModal`, `editingId`, `form`, `saving`), a required-field gate before
 saving, and a delete confirmation holding one target id. A handler runs to
 completion against the server's reply and yields the new state and its
 effects: toasts for the shell, the call it sent, and a list reload.
 */
module Crud {
  import opened Values
  import opened Envelopes
  import opened Api
  import opened Toasts
  import Strings

  const Unreachable := "Không thể kết nối server"
  const DeleteFailed := "Xóa thất bại"

  datatype Effect = Notify(message: string, kind: Kind) | Send(call: Call) | Reload

  predicate Sends(effects: seq<Effect>) {
    exists k :: 0 <= k < |effects| && effects[k].Send?
  }

  datatype Editor<F> = Editor(showModal: bool, editingId: Option<string>, form: F, saving: bool)

  /** The per-page texts and the page's failure-message chain. */
  datatype Texts = Texts(incomplete: string, created: string, updated: string, saveFailed: string, chain: Chain, deleted: string)

  datatype Edited<F> = Edited(editor: Editor<F>, effects: seq<Effect>)

  /** A page handler's result: the page state after it and its effects. */
  datatype Step<S> = Step(state: S, effects: seq<Effect>)

  datatype Deleted = Deleted(deleteId: Option<string>, effects: seq<Effect>)

  /** `openCreate`: a fresh form and no id, modal open. */
  function OpenCreate<F>(e: Editor<F>, empty: F): (r: Editor<F>)
    ensures r.showModal && r.editingId.None? && r.form == empty && r.saving == e.saving
  {
    e.(showModal := true, editingId := None, form := empty)
  }

  /** `openEdit(entity)`: the entity's id and its fields copied into the form. */
  function OpenEdit<F>(e: Editor<F>, id: string, form: F): (r: Editor<F>)
    ensures r.showModal && r.editingId == Some(id) && r.form == form && r.saving == e.saving
  {
    e.(showModal := true, editingId := Some(id), form := form)
  }

  /** Cancel, the close button or a click on the overlay. */
  function Close<F>(e: Editor<F>): (r: Editor<F>)
    ensures !r.showModal && r.(showModal := e.showModal) == e
  {
    e.(showModal := false)
  }

  /** `if (editingId) update(editingId, payload) else create(payload)`. */
  function SaveCall(res: Resource, editingId: Option<string>, body: Body): (c: Call)
    ensures c.body == Some(body)
    ensures Truthy(editingId) ==> c == Update(res, editingId.value, body)
    ensures !Truthy(editingId) ==> c == Create(res, body)
    ensures c.verb == PUT <==> Truthy(editingId)
    ensures c.verb == POST <==> !Truthy(editingId)
    ensures c.endpoint == Collection(res) <==> !Truthy(editingId)
    ensures Truthy(editingId) && '/' !in editingId.value ==>
              Strings.Split(c.endpoint, '/') == ["", Name(res), editingId.value]
  {
    if Truthy(editingId) then
      var c := Update(res, editingId.value, body);
      assert |Item(res, editingId.value)| > |Collection(res)|;
      assert '/' !in editingId.value ==> Strings.Split(c.endpoint, '/') == ["", Name(res), editingId.value] by {
        if '/' !in editingId.value {
          ItemSegments(res, editingId.value);
        }
      }
      c
    else Create(res, body)
  }

  /** `handleSave`: an incomplete form only warns; otherwise the call is sent
      and its reply decides between closing-and-reloading and an error toast.
      `saving` is off again after every path that sent. */
  function Save<F, D>(res: Resource, texts: Texts, e: Editor<F>, complete: bool, body: Body, reply: Reply<D>): (r: Edited<F>)
    ensures !complete ==> r.editor == e && r.effects == [Notify(texts.incomplete, Warning)] && !Sends(r.effects)
    ensures complete ==> |r.effects| >= 2 && r.effects[0] == Send(SaveCall(res, e.editingId, body))
    ensures complete ==> !r.editor.saving
    ensures r.editor.form == e.form && r.editor.editingId == e.editingId
    ensures complete && Succeeded(reply) ==>
              !r.editor.showModal && r.effects[|r.effects| - 1] == Reload
              && r.effects[1] == Notify(if Truthy(e.editingId) then texts.updated else texts.created, Success)
    ensures complete && !Succeeded(reply) ==>
              r.editor.showModal == e.showModal && Reload !in r.effects && |r.effects| == 2
              && r.effects[1].Notify? && r.effects[1].kind == Error
    ensures complete && reply.TransportError? ==> r.effects[1] == Notify(Unreachable, Error)
    ensures complete && reply.Received? && !reply.envelope.success ==>
              r.effects[1] == Notify(FailureText(texts.chain, reply.envelope, texts.saveFailed), Error)
  {
    if !complete then Edited(e, [Notify(texts.incomplete, Warning)])
    else
      var sent := Send(SaveCall(res, e.editingId, body));
      var done := e.(saving := false);
      match reply
      case TransportError => Edited(done, [sent, Notify(Unreachable, Error)])
      case Received(env) =>
        if env.success then
          var msg := if Truthy(e.editingId) then texts.updated else texts.created;
          Edited(done.(showModal := false), [sent, Notify(msg, Success), Reload])
        else
          Edited(done, [sent, Notify(FailureText(texts.chain, env, texts.saveFailed), Error)])
  }

  /** A failed save is recoverable: the form is still there, and retrying it
      ends exactly where a first attempt with the later reply would have. */
  lemma SaveRetry<F, D>(res: Resource, texts: Texts, e: Editor<F>, complete: bool, body: Body, first: Reply<D>, second: Reply<D>)
    requires !Succeeded(first)
    ensures var again := Save(res, texts, Save(res, texts, e, complete, body, first).editor, complete, body, second);
            again.editor == Save(res, texts, e, complete, body, second).editor
            && again.effects == Save(res, texts, e, complete, body, second).effects
  {
  }

  /** `handleDelete`: nothing without a target; on success the target is
      cleared and the list reloads; on any failure the target is kept. */
  function ConfirmDelete<D>(res: Resource, texts: Texts, deleteId: Option<string>, reply: Reply<D>): (r: Deleted)
    ensures !Truthy(deleteId) ==> r.deleteId == deleteId && r.effects == []
    ensures Truthy(deleteId) ==> |r.effects| >= 2 && r.effects[0] == Send(Delete(res, deleteId.value))
    ensures Truthy(deleteId) && Succeeded(reply) ==>
              r.deleteId.None? && r.effects == [Send(Delete(res, deleteId.value)), Notify(texts.deleted, Success), Reload]
    ensures !Succeeded(reply) ==> r.deleteId == deleteId && Reload !in r.effects
    ensures Truthy(deleteId) && reply.TransportError? ==> r.effects[1] == Notify(Unreachable, Error)
    ensures Truthy(deleteId) && reply.Received? && !reply.envelope.success ==>
              r.effects[1] == Notify(FailureText(ErrorOnly, reply.envelope, DeleteFailed), Error)
  {
    if !Truthy(deleteId) then Deleted(deleteId, [])
    else
      var sent := Send(Delete(res, deleteId.value));
      match reply
      case TransportError => Deleted(deleteId, [sent, Notify(Unreachable, Error)])
      case Received(env) =>
        if env.success then Deleted(None, [sent, Notify(texts.deleted, Success), Reload])
        else Deleted(deleteId, [sent, Notify(FailureText(ErrorOnly, env, DeleteFailed), Error)])
  }

  /** A failed delete can be confirmed again and sends the same request. */
  lemma DeleteRetry<D>(res: Resource, texts: Texts, deleteId: Option<string>, first: Reply<D>, second: Reply<D>)
    requires !Succeeded(first)
    ensures ConfirmDelete(res, texts, ConfirmDelete(res, texts, deleteId, first).deleteId, second)
            == ConfirmDelete(res, texts, deleteId, second)
  {
  }

  /** A successful delete disarms the dialog: confirming again sends nothing. */
  lemma DeleteOnce<D>(res: Resource, texts: Texts, deleteId: Option<string>, first: Reply<D>, second: Reply<D>)
    requires Succeeded(first)
    ensures !Sends(ConfirmDelete(res, texts, ConfirmDelete(res, texts, deleteId, first).deleteId, second).effects)
  {
  }
}

=== FILE: dashboard.dfy ===
/**
 The dashboard: five list requests in parallel, reduced to eight counters
 and the five most recent rentals. The replies' `success` flags are never
 read; only a request that throws stops the update.
 */
module Dashboard {
  import opened Values
  import opened Envelopes
  import opened Schema
  import Api
  import Pagination
  import Rentals

  const RecentCount := 5

  datatype Stats = Stats(
    totalMotorbikes: nat, totalUsers: nat, totalRentals: nat, totalBlogs: nat, totalPromotions: nat,
    availableMotorbikes: nat, pendingRentals: nat, revenue: int)

  const ZeroStats := Stats(0, 0, 0, 0, 0, 0, 0, 0)

  datatype State = State(stats: Stats, recent: seq<Rental>, loading: bool)

  function Initial(): State {
    State(ZeroStats, [], true)
  }

  /** The five replies `Promise.all` waits for. */
  datatype Replies = Replies(
    motorbikes: Reply<Listing<Motorbike>>, users: Reply<Listing<UserRecord>>,
    rentals: Reply<RentalList>, blogs: Reply<seq<Blog>>, promotions: Reply<seq<Promotion>>)

  /** The five requests, in the order they are started. */
  function Calls(): (cs: seq<Api.Call>)
    ensures |cs| == 5 && forall k :: 0 <= k < 5 ==> cs[k].verb == Api.GET && cs[k].body.None?
    ensures cs[0].endpoint == Api.Collection(Api.Motorbikes) && cs[1].endpoint == Api.Collection(Api.Users)
    ensures cs[2].endpoint == Api.Item(Api.Rentals, "all")
    ensures cs[3].endpoint == Api.Collection(Api.Blogs) && cs[4].endpoint == Api.Collection(Api.Promotions)
  {
    [Api.MotorbikesGetAll(None, Some(100), None, None, None), Api.UsersGetAll(Some(1), Some(100), None),
     Api.RentalsGetAll(Some(1), Some(100), None), Api.BlogsGetAll(), Api.PromotionsGetAll()]
  }

  /** `res?.data` whatever `success` says. */
  function DataOf<D>(reply: Reply<D>): (d: Option<D>)
    ensures reply.TransportError? ==> d.None?
    ensures reply.Received? ==> d == reply.envelope.data
  {
    if reply.Received? then reply.envelope.data else None
  }

  /** `res?.data?.<items> || []` on a wrapped list. */
  function ItemsOf<E>(reply: Reply<Listing<E>>): (xs: seq<E>)
    ensures DataOf(reply).None? ==> xs == []
    ensures DataOf(reply).Some? ==> xs == DataOf(reply).value.items.GetOr([])
  {
    match DataOf(reply)
    case None => []
    case Some(l) => l.items.GetOr([])
  }

  /** `res?.data?.total || fallback`. */
  function TotalOf<E>(reply: Reply<Listing<E>>, fallback: nat): (n: nat)
    ensures DataOf(reply).Some? ==> n == CountOr(DataOf(reply).value.total, fallback)
    ensures DataOf(reply).None? ==> n == fallback
  {
    match DataOf(reply)
    case None => fallback
    case Some(l) => CountOr(l.total, fallback)
  }

  /** `rentalRes?.data?.rentals || []`: unlike the rental page, a bare list
      is not read here (an array has no `rentals`). */
  function RentalsOf(reply: Reply<RentalList>): (rs: seq<Rental>)
    ensures DataOf(reply).Some? && DataOf(reply).value.Keyed? ==> rs == DataOf(reply).value.rentals.GetOr([])
    ensures DataOf(reply).None? || DataOf(reply).value.Bare? ==> rs == []
  {
    var d := DataOf(reply);
    if d.Some? && d.value.Keyed? then d.value.rentals.GetOr([]) else []
  }

  function RentalTotalOf(reply: Reply<RentalList>, fallback: nat): (n: nat)
    ensures DataOf(reply).Some? && DataOf(reply).value.Keyed? ==> n == CountOr(DataOf(reply).value.total, fallback)
    ensures DataOf(reply).None? || DataOf(reply).value.Bare? ==> n == fallback
  {
    var d := DataOf(reply);
    if d.Some? && d.value.Keyed? then CountOr(d.value.total, fallback) else fallback
  }

  /** `res?.data || []` on a bare list. */
  function ListOf<E>(reply: Reply<seq<E>>): (xs: seq<E>)
    ensures xs == DataOf(reply).GetOr([])
  {
    DataOf(reply).GetOr([])
  }

  /** `motorbikes.filter(m => m.status === 'AVAILABLE').length`: one for
      each available motorbike (the singleton case together with
      `CountAvailableAppend` fixes the count of every list). */
  function CountAvailable(ms: seq<Motorbike>): (n: nat)
    ensures n <= |ms|
    ensures n == 0 <==> forall k :: 0 <= k < |ms| ==> ms[k].status != Some("AVAILABLE")
    ensures n == |ms| <==> forall k :: 0 <= k < |ms| ==> ms[k].status == Some("AVAILABLE")
    ensures |ms| == 1 ==> (n == 1 <==> ms[0].status == Some("AVAILABLE"))
  {
    if |ms| == 0 then 0
    else
      var rest := CountAvailable(ms[1..]);
      assert forall k :: 1 <= k < |ms| ==> ms[k] == ms[1..][k - 1];
      (if ms[0].status == Some("AVAILABLE") then 1 else 0) + rest
  }

  /** The available count adds up over any split of the motorbike list. */
  lemma {:induction false} CountAvailableAppend(a: seq<Motorbike>, b: seq<Motorbike>)
    ensures CountAvailable(a + b) == CountAvailable(a) + CountAvailable(b)
  {
    if |a| == 0 {
      assert a + b == b;
    } else {
      assert (a + b)[1..] == a[1..] + b;
      CountAvailableAppend(a[1..], b);
    }
  }

  /** The sum of `parseFloat(r.totalPrice || '0')` over a list: one rental
      contributes its price, or 0 when it has none (the singleton case
      together with `SumAppend` fixes the sum of every list); with no
      negative price it is never negative and bounds every single price. */
  function SumPrices(rs: seq<Rental>): (total: int)
    ensures |rs| == 1 ==> total == rs[0].totalPrice.GetOr(0)
    ensures (forall k :: 0 <= k < |rs| ==> rs[k].totalPrice.GetOr(0) >= 0) ==>
              total >= 0 && forall k :: 0 <= k < |rs| ==> total >= rs[k].totalPrice.GetOr(0)
  {
    if |rs| == 0 then 0
    else
      assert forall k :: 1 <= k < |rs| ==> rs[k] == rs[1..][k - 1];
      rs[0].totalPrice.GetOr(0) + SumPrices(rs[1..])
  }

  /** Revenue: the prices of completed rentals. One rental contributes its
      price when it is COMPLETED and nothing otherwise (the singleton case
      together with `RevenueAppend` fixes the revenue of every list).
      Without a completed rental it is zero; with no negative price it
      bounds each completed rental's price. */
  function Revenue(rs: seq<Rental>): (r: int)
    ensures |rs| == 1 ==> r == (if rs[0].status == "COMPLETED" then rs[0].totalPrice.GetOr(0) else 0)
    ensures (forall k :: 0 <= k < |rs| ==> rs[k].status != "COMPLETED") ==> r == 0
    ensures (forall k :: 0 <= k < |rs| ==> rs[k].totalPrice.GetOr(0) >= 0) ==>
              r >= 0 && forall k :: 0 <= k < |rs| && rs[k].status == "COMPLETED" ==> r >= rs[k].totalPrice.GetOr(0)
  {
    var f := Rentals.FilterBy(rs, "COMPLETED");
    assert (forall k :: 0 <= k < |rs| ==> rs[k].status != "COMPLETED") ==> f == [] by {
      if forall k :: 0 <= k < |rs| ==> rs[k].status != "COMPLETED" {
        FilterNone(rs, "COMPLETED");
      }
    }
    assert (forall k :: 0 <= k < |rs| ==> rs[k].totalPrice.GetOr(0) >= 0) ==>
             SumPrices(f) >= 0 && forall k :: 0 <= k < |rs| && rs[k].status == "COMPLETED" ==> SumPrices(f) >= rs[k].totalPrice.GetOr(0)
    by {
      if forall k :: 0 <= k < |rs| ==> rs[k].totalPrice.GetOr(0) >= 0 {
        RevenueBounds(rs);
      }
    }
    assert |rs| == 1 ==> f == (if rs[0].status == "COMPLETED" then [rs[0]] else []) by {
      if |rs| == 1 {
        FilterOne(rs, "COMPLETED");
      }
    }
    SumPrices(f)
  }

  /** With no negative price, the completed rentals' sum is non-negative
      and at least each completed rental's price. */
  lemma RevenueBounds(rs: seq<Rental>)
    requires forall k :: 0 <= k < |rs| ==> rs[k].totalPrice.GetOr(0) >= 0
    ensures var f := Rentals.FilterBy(rs, "COMPLETED");
            SumPrices(f) >= 0 && forall k :: 0 <= k < |rs| && rs[k].status == "COMPLETED" ==> SumPrices(f) >= rs[k].totalPrice.GetOr(0)
  {
    var f := Rentals.FilterBy(rs, "COMPLETED");
    forall j | 0 <= j < |f|
      ensures f[j].totalPrice.GetOr(0) >= 0
    {
      assert f[j] in f;
      assert f[j] in rs;
    }
    FilterKeeps(rs, "COMPLETED");
    forall k | 0 <= k < |rs| && rs[k].status == "COMPLETED"
      ensures SumPrices(f) >= rs[k].totalPrice.GetOr(0)
    {
      assert rs[k] in f;
      var j :| 0 <= j < |f| && f[j] == rs[k];
    }
  }

  /** No rental of the status: the filter keeps nothing. */
  lemma FilterNone(rs: seq<Rental>, status: string)
    requires forall k :: 0 <= k < |rs| ==> rs[k].status != status
    ensures Rentals.FilterBy(rs, status) == []
  {
  }

  /** Every rental of the status is somewhere in the filtered list. */
  lemma FilterKeeps(rs: seq<Rental>, status: string)
    ensures forall k :: 0 <= k < |rs| && rs[k].status == status ==> rs[k] in Rentals.FilterBy(rs, status)
  {
    forall k | 0 <= k < |rs| && rs[k].status == status
      ensures rs[k] in Rentals.FilterBy(rs, status)
    {
      assert rs[k] in rs;
    }
  }

  /** A one-rental list is kept whole or dropped whole. */
  lemma FilterOne(rs: seq<Rental>, status: string)
    requires |rs| == 1
    ensures Rentals.FilterBy(rs, status) == (if rs[0].status == status then [rs[0]] else [])
  {
    assert rs[1..] == [];
  }

  lemma {:induction false} SumAppend(a: seq<Rental>, b: seq<Rental>)
    ensures SumPrices(a + b) == SumPrices(a) + SumPrices(b)
  {
    if |a| == 0 {
      assert a + b == b;
    } else {
      assert (a + b)[1..] == a[1..] + b;
      SumAppend(a[1..], b);
    }
  }

  /** Revenue adds up over any split of the rental list. */
  lemma RevenueAppend(a: seq<Rental>, b: seq<Rental>)
    ensures Revenue(a + b) == Revenue(a) + Revenue(b)
  {
    Rentals.FilterAppend(a, b, "COMPLETED");
    SumAppend(Rentals.FilterBy(a, "COMPLETED"), Rentals.FilterBy(b, "COMPLETED"));
  }

  /** Prices are never negative on the server, and then neither is revenue. */
  lemma {:induction false} RevenueNonNegative(rs: seq<Rental>)
    requires forall k :: 0 <= k < |rs| ==> rs[k].totalPrice.GetOr(0) >= 0
    ensures Revenue(rs) >= 0
  {
    SumNonNegative(Rentals.FilterBy(rs, "COMPLETED"));
  }

  lemma {:induction false} SumNonNegative(rs: seq<Rental>)
    requires forall x :: x in rs ==> x.totalPrice.GetOr(0) >= 0
    ensures SumPrices(rs) >= 0
  {
    if |rs| > 0 {
      assert rs[0] in rs;
      assert forall x :: x in rs[1..] ==> x in rs;
      SumNonNegative(rs[1..]);
    }
  }

  /** `loadDashboardData` once every reply is in: a thrown request leaves
      the counters as they were, otherwise all eight are recomputed. The
      spinner stops either way. */
  function Load(s: State, replies: Replies): (r: State)
    ensures !r.loading
    ensures (replies.motorbikes.TransportError? || replies.users.TransportError? || replies.rentals.TransportError?
             || replies.blogs.TransportError? || replies.promotions.TransportError?) ==> r == s.(loading := false)
    ensures replies.rentals.Received? && replies.motorbikes.Received? && replies.users.Received?
            && replies.blogs.Received? && replies.promotions.Received? ==>
              var rs := RentalsOf(replies.rentals);
              r.stats.pendingRentals == |Rentals.FilterBy(rs, "PENDING")|
              && r.stats.revenue == Revenue(rs)
              && r.stats.totalBlogs == |ListOf(replies.blogs)| && r.stats.totalPromotions == |ListOf(replies.promotions)|
              && r.stats.availableMotorbikes == CountAvailable(ItemsOf(replies.motorbikes))
              && r.stats.availableMotorbikes <= |ItemsOf(replies.motorbikes)|
              && r.stats.totalMotorbikes == TotalOf(replies.motorbikes, |ItemsOf(replies.motorbikes)|)
              && r.stats.totalUsers == TotalOf(replies.users, |ItemsOf(replies.users)|)
              && r.stats.totalRentals == RentalTotalOf(replies.rentals, |rs|)
              && |r.recent| == Pagination.Min(RecentCount, |rs|) && r.recent == rs[..|r.recent|]
  {
    if replies.motorbikes.TransportError? || replies.users.TransportError? || replies.rentals.TransportError?
       || replies.blogs.TransportError? || replies.promotions.TransportError?
    then s.(loading := false)
    else
      var motorbikes := ItemsOf(replies.motorbikes);
      var users := ItemsOf(replies.users);
      var rentals := RentalsOf(replies.rentals);
      var stats := Stats(
        TotalOf(replies.motorbikes, |motorbikes|), TotalOf(replies.users, |users|),
        RentalTotalOf(replies.rentals, |rentals|), |ListOf(replies.blogs)|, |ListOf(replies.promotions)|,
        CountAvailable(motorbikes), |Rentals.FilterBy(rentals, "PENDING")|, Revenue(rentals));
      State(stats, rentals[..Pagination.Min(RecentCount, |rentals|)], false)
  }

  /** A reply marked as failed still counts: only its data is read. */
  function Failed<D>(reply: Reply<D>): (r: Reply<D>)
    ensures r.Received? <==> reply.Received?
    ensures r.Received? ==> !r.envelope.success && r.envelope.data == reply.envelope.data
  {
    match reply
    case TransportError => TransportError
    case Received(env) => Received(env.(success := false))
  }

  /** The dashboard shows the same numbers whether the server reports success
      or failure, as long as the same data comes back. */
  lemma SuccessIgnored(s: State, replies: Replies)
    ensures Load(s, Replies(Failed(replies.motorbikes), Failed(replies.users), Failed(replies.rentals),
                            Failed(replies.blogs), Failed(replies.promotions)))
            == Load(s, replies)
  {
  }

  /** A rental list sent bare, which the rental page reads, counts as no
      rentals at all here. */
  lemma BareRentalsUncounted(s: State, replies: Replies)
    requires replies.rentals.Received? && replies.rentals.envelope.data.Some?
    requires replies.rentals.envelope.data.value.Bare?
    requires replies.motorbikes.Received? && replies.users.Received?
    requires replies.blogs.Received? && replies.promotions.Received?
    ensures Load(s, replies).stats.pendingRentals == 0 && Load(s, replies).stats.revenue == 0
    ensures Load(s, replies).recent == []
  {
  }

  /** The first load after mount: if any request throws, the dashboard shows
      zeros and no recent rentals, and stops loading. */
  lemma FirstLoadFailureShowsZeros(replies: Replies)
    requires replies.motorbikes.TransportError? || replies.users.TransportError? || replies.rentals.TransportError?
             || replies.blogs.TransportError? || replies.promotions.TransportError?
    ensures Load(Initial(), replies) == State(ZeroStats, [], false)
  {
  }
}

=== FILE: envelopes.dfy ===
/**
 The uniform response envelope of the REST API and the two error channels a
 caller must distinguish: an envelope the server sent (possibly with
 `success: false`) and a transport failure (the request never produced a
 parseable JSON body, so `fetch` or `response.json()` rejected).
 */
module Envelopes {
  import opened Values

  /** `{success, data?, error?, message?}` as returned by every endpoint. */
  datatype Envelope<D> = Envelope(success: bool, data: Option<D>, error: Option<string>, message: Option<string>)

  /** What an awaited API call yields: an envelope, or a thrown transport error. */
  datatype Reply<D> = Received(envelope: Envelope<D>) | TransportError

  /** `res.success` on a reply that arrived. */
  predicate Succeeded<D>(reply: Reply<D>) {
    reply.Received? && reply.envelope.success
  }

  /** `res.success && res.data`: the guard the list loaders and the login use. */
  predicate Delivered<D>(reply: Reply<D>) {
    Succeeded(reply) && reply.envelope.data.Some?
  }

  /** The order in which a page consults the envelope's two text fields. */
  datatype Chain =
    | ErrorThenMessage   // res.error || res.message || fallback
    | ErrorOnly          // res.error || fallback
    | MessageThenError   // res.message || res.error || fallback

  /** The text a failed envelope is reported with: the server's own text when
      the chain finds a truthy one, otherwise the page's fallback. */
  function FailureText<D>(chain: Chain, env: Envelope<D>, fallback: string): (t: string)
    ensures t == fallback
            || (Truthy(env.error) && t == env.error.value)
            || (chain != ErrorOnly && Truthy(env.message) && t == env.message.value)
    ensures chain != MessageThenError && Truthy(env.error) ==> t == env.error.value
    ensures chain == MessageThenError && Truthy(env.message) ==> t == env.message.value
    ensures chain == ErrorOnly && !Truthy(env.error) ==> t == fallback
    ensures !Truthy(env.error) && !Truthy(env.message) ==> t == fallback
    ensures fallback != "" ==> t != ""
  {
    match chain
    case ErrorThenMessage => OrElse(Or(env.error, env.message), fallback)
    case ErrorOnly => OrElse(env.error, fallback)
    case MessageThenError => OrElse(Or(env.message, env.error), fallback)
  }

  /** The two two-field chains agree whenever the server filled in at most one
      of the fields: the order only matters when both are truthy. */
  lemma ChainsAgreeOnOneField<D>(env: Envelope<D>, fallback: string)
    requires !(Truthy(env.error) && Truthy(env.message))
    ensures FailureText(ErrorThenMessage, env, fallback) == FailureText(MessageThenError, env, fallback)
  {
  }
}

=== FILE: login.dfy ===
/**
 The login form's submit handler: one request to `/auth/login`, then a
 decision on the reply. Tokens are written before the ADMIN role check, so a
 rejected non-admin leaves tokens behind (`Submit`); `SubmitGated` is the
 same handler with the write moved behind the check.
 */
module Login {
  import opened Values
  import opened Envelopes
  import opened Schema
  import opened Session
  import Api

  const AccessDenied := "Bạn không có quyền truy cập trang quản trị."
  const LoginFailed := "Đăng nhập thất bại"
  const Unreachable := "Không thể kết nối đến server. Vui lòng thử lại."

  /** The form's state: its two fields, the spinner flag and the error banner. */
  datatype Form = Form(email: string, password: string, loading: bool, error: string)

  /** The outcome of one submit: the form, the storage after it, the request
      sent, and whether `onLoginSuccess` was called. */
  datatype Submitted = Submitted(form: Form, storage: Storage, request: Api.Call, admitted: bool)

  /** `accessToken || access_token`. */
  function AccessOf(d: LoginData): (t: Option<string>)
    ensures Truthy(t) <==> Truthy(d.accessToken) || Truthy(d.access_token)
    ensures Truthy(d.accessToken) ==> t == d.accessToken
    ensures !Truthy(d.accessToken) ==> t == d.access_token
  {
    Or(d.accessToken, d.access_token)
  }

  /** `refreshToken || refresh_token`. */
  function RefreshOf(d: LoginData): (t: Option<string>)
    ensures Truthy(t) <==> Truthy(d.refreshToken) || Truthy(d.refresh_token)
    ensures Truthy(d.refreshToken) ==> t == d.refreshToken
    ensures !Truthy(d.refreshToken) ==> t == d.refresh_token
  {
    Or(d.refreshToken, d.refresh_token)
  }

  predicate IsAdmin(u: LoginUser) {
    u.role == Some("ADMIN")
  }

  /** The user the response lets in: none sent, or one whose role is ADMIN. */
  predicate Admits(d: LoginData) {
    d.user.None? || IsAdmin(d.user.value)
  }

  /** `if (at && rt) setTokens(at, rt)`. */
  function StoreTokens(st: Storage, d: LoginData): (r: Storage)
    ensures Truthy(AccessOf(d)) && Truthy(RefreshOf(d)) ==> r == SetTokens(st, AccessOf(d).value, RefreshOf(d).value)
    ensures !(Truthy(AccessOf(d)) && Truthy(RefreshOf(d))) ==> r == st
    ensures r.hasWindow == st.hasWindow
    ensures forall k :: k != AccessKey && k != RefreshKey ==> SameEntry(r, st, k)
    ensures GetUser(r) == GetUser(st)
    ensures st.hasWindow && Truthy(AccessOf(d)) && Truthy(RefreshOf(d)) ==>
              GetAccessToken(r) == AccessOf(d) && GetRefreshToken(r) == RefreshOf(d) && IsLoggedIn(r)
  {
    var at := AccessOf(d);
    var rt := RefreshOf(d);
    if Truthy(at) && Truthy(rt) then
      var r := SetTokens(st, at.value, rt.value);
      assert SameEntry(r, st, UserKey);
      r
    else st
  }

  /** The role gate on a delivered reply: no user object lets the login
      through, and a user only with the exact role `ADMIN`; anything else,
      a missing role or another spelling included, is turned away. */
  lemma RoleGate(f: Form, st: Storage, reply: Reply<LoginData>)
    requires Delivered(reply)
    ensures reply.envelope.data.value.user.None? ==> Submit(f, st, reply).admitted
    ensures reply.envelope.data.value.user.Some? ==>
              (Submit(f, st, reply).admitted <==> reply.envelope.data.value.user.value.role == Some("ADMIN"))
    ensures reply.envelope.data.value.user.Some? && reply.envelope.data.value.user.value.role.None? ==>
              !Submit(f, st, reply).admitted
  {
  }

  /** `handleSubmit` as written: error cleared and spinner on, request, then
      tokens, role gate, profile, success signal; the spinner is off after
      every path. */
  function Submit(f: Form, st: Storage, reply: Reply<LoginData>): (r: Submitted)
    ensures !r.form.loading
    ensures r.form.email == f.email && r.form.password == f.password
    ensures r.request == Api.Login(f.email, f.password)
    ensures r.admitted ==> r.form.error == ""
    ensures reply.TransportError? ==> r.storage == st && !r.admitted && r.form.error == Unreachable
    ensures reply.Received? && !Delivered(reply) ==>
              r.storage == st && !r.admitted
              && r.form.error == FailureText(MessageThenError, reply.envelope, LoginFailed)
    ensures Delivered(reply) ==> (r.admitted <==> Admits(reply.envelope.data.value))
    ensures Delivered(reply) && !r.admitted ==>
              r.form.error == AccessDenied && r.storage == StoreTokens(st, reply.envelope.data.value)
    ensures Delivered(reply) && r.admitted && reply.envelope.data.value.user.Some? ==>
              r.storage == SetUser(StoreTokens(st, reply.envelope.data.value), reply.envelope.data.value.user.value.profile)
    ensures Delivered(reply) && reply.envelope.data.value.user.None? ==>
              r.storage == StoreTokens(st, reply.envelope.data.value)
  {
    var request := Api.Login(f.email, f.password);
    var cleared := Form(f.email, f.password, false, "");
    match reply
    case TransportError =>
      Submitted(cleared.(error := Unreachable), st, request, false)
    case Received(env) =>
      if env.success && env.data.Some? then
        var d := env.data.value;
        var withTokens := StoreTokens(st, d);
        match d.user
        case None => Submitted(cleared, withTokens, request, true)
        case Some(u) =>
          if !IsAdmin(u) then Submitted(cleared.(error := AccessDenied), withTokens, request, false)
          else Submitted(cleared, SetUser(withTokens, u.profile), request, true)
      else
        Submitted(cleared.(error := FailureText(MessageThenError, env, LoginFailed)), st, request, false)
  }

  /** Tokens are written exactly when the reply succeeded with data and both
      chosen tokens are truthy; otherwise both token entries are untouched. */
  lemma TokensWrittenIff(f: Form, st: Storage, reply: Reply<LoginData>)
    requires st.hasWindow
    ensures var r := Submit(f, st, reply);
            if Delivered(reply) && Truthy(AccessOf(reply.envelope.data.value)) && Truthy(RefreshOf(reply.envelope.data.value))
            then GetAccessToken(r.storage) == AccessOf(reply.envelope.data.value)
                 && GetRefreshToken(r.storage) == RefreshOf(reply.envelope.data.value)
            else SameEntry(r.storage, st, AccessKey) && SameEntry(r.storage, st, RefreshKey)
  {
    var r := Submit(f, st, reply);
    if Delivered(reply) {
      var d := reply.envelope.data.value;
      var t := StoreTokens(st, d);
      if Truthy(AccessOf(d)) && Truthy(RefreshOf(d)) {
        SetTokensThenGet(st, AccessOf(d).value, RefreshOf(d).value);
        if d.user.Some? && Admits(d) {
          SetUserThenGet(t, d.user.value.profile);
        }
      } else if d.user.Some? && Admits(d) {
        assert SameEntry(r.storage, st, AccessKey);
        assert SameEntry(r.storage, st, RefreshKey);
      }
    }
  }

  /** A non-admin is turned away, yet the tokens written before the check stay
      stored: the session now reads as logged in and no profile was cached. */
  lemma RejectedKeepsTokens(f: Form, st: Storage, reply: Reply<LoginData>)
    requires st.hasWindow
    requires Delivered(reply)
    requires reply.envelope.data.value.user.Some? && !IsAdmin(reply.envelope.data.value.user.value)
    requires Truthy(AccessOf(reply.envelope.data.value)) && Truthy(RefreshOf(reply.envelope.data.value))
    ensures !Submit(f, st, reply).admitted
    ensures Submit(f, st, reply).form.error == AccessDenied
    ensures IsLoggedIn(Submit(f, st, reply).storage)
    ensures GetUser(Submit(f, st, reply).storage) == GetUser(st)
  {
    var d := reply.envelope.data.value;
    SetTokensThenGet(st, AccessOf(d).value, RefreshOf(d).value);
  }

  /** A failed envelope or a transport failure writes nothing and signals no
      success; the banner shows the server's text or the fixed fallback. */
  lemma FailureWritesNothing(f: Form, st: Storage, reply: Reply<LoginData>)
    requires !Delivered(reply)
    ensures Submit(f, st, reply).storage == st
    ensures !Submit(f, st, reply).admitted
    ensures Submit(f, st, reply).form.error != ""
  {
  }

  /** The corrected handler: tokens are only written once the role gate has
      passed, so a turned-away user leaves the session as it was. */
  function SubmitGated(f: Form, st: Storage, reply: Reply<LoginData>): (r: Submitted)
    ensures !r.form.loading
    ensures r.request == Api.Login(f.email, f.password)
    ensures !r.admitted ==> r.storage == st
    ensures r.admitted <==> Delivered(reply) && Admits(reply.envelope.data.value)
  {
    var r := Submit(f, st, reply);
    if r.admitted then r else r.(storage := st)
  }

  /** The corrected handler agrees with the code on every reply it admits and
      on every banner it shows. */
  lemma GatedAgreesWhenAdmitted(f: Form, st: Storage, reply: Reply<LoginData>)
    ensures SubmitGated(f, st, reply).admitted == Submit(f, st, reply).admitted
    ensures SubmitGated(f, st, reply).form == Submit(f, st, reply).form
    ensures Submit(f, st, reply).admitted ==> SubmitGated(f, st, reply) == Submit(f, st, reply)
  {
  }
}

=== FILE: motorbikes.dfy ===
/**
 The motorbike page: a server-paged list with search and two filters, the
 create/edit modal over a ten-field form, and the delete confirmation. The
 image list is edited as one comma-separated text field.
 */
module Motorbikes {
  import opened Values
  import opened Envelopes
  import opened Schema
  import opened Strings
  import Api
  import Crud
  import Pagination
  import Toasts

  datatype Form = Form(
    name: string, vehicleType: string, pricePerDay: string, description: string,
    licensePlate: string, year: string, images: string, fuelCapacity: string,
    engineSize: string, status: string)

  const EmptyForm := Form("", "SCOOTER", "", "", "", "", "", "", "", "AVAILABLE")

  const Texts := Crud.Texts(
    "Vui lòng điền đầy đủ thông tin bắt buộc", "Thêm xe mới thành công!", "Cập nhật xe thành công!",
    "Có lỗi xảy ra", ErrorThenMessage, "Xóa xe thành công!")

  datatype State = State(
    motorbikes: seq<Motorbike>, total: nat, search: string, filterType: string, filterStatus: string,
    page: int, editor: Crud.Editor<Form>, deleteId: Option<string>)

  function Initial(): State {
    State([], 0, "", "", "", 1, Crud.Editor(false, None, EmptyForm, false), None)
  }

  /** `loadMotorbikes`'s request: the page, limit and filters are passed to
      `getAll`, which drops them. */
  function LoadCall(s: State): (c: Api.Call)
    ensures c == Api.Call(Api.Collection(Api.Motorbikes), Api.GET, None)
  {
    Api.MotorbikesGetAll(Some(s.page), Some(Pagination.PageSize), NonEmpty(s.filterType),
                         NonEmpty(s.filterStatus), NonEmpty(s.search))
  }

  /** Search and filters change the page number but never the request, so
      they cannot change which motorbikes come back. */
  lemma FiltersNotSent(s: State, text: string)
    ensures LoadCall(SetSearch(s, text)) == LoadCall(s)
    ensures LoadCall(SetFilterType(s, text)) == LoadCall(s)
    ensures LoadCall(SetFilterStatus(s, text)) == LoadCall(s)
  {
  }

  /** The list is replaced only by a successful reply with data. */
  function Load(s: State, reply: Reply<Listing<Motorbike>>): (r: State)
    ensures !Delivered(reply) ==> r == s
    ensures Delivered(reply) ==>
              r.motorbikes == reply.envelope.data.value.items.GetOr([])
              && r.total == CountOr(reply.envelope.data.value.total, 0)
    ensures r.(motorbikes := s.motorbikes, total := s.total) == s
  {
    if Delivered(reply) then
      var d := reply.envelope.data.value;
      s.(motorbikes := d.items.GetOr([]), total := CountOr(d.total, 0))
    else s
  }

  function SetSearch(s: State, text: string): (r: State)
    ensures r.search == text && r.page == 1
    ensures r.(search := s.search, page := s.page) == s
  {
    s.(search := text, page := 1)
  }

  function SetFilterType(s: State, value: string): (r: State)
    ensures r.filterType == value && r.page == 1
    ensures r.(filterType := s.filterType, page := s.page) == s
  {
    s.(filterType := value, page := 1)
  }

  function SetFilterStatus(s: State, value: string): (r: State)
    ensures r.filterStatus == value && r.page == 1
    ensures r.(filterStatus := s.filterStatus, page := s.page) == s
  {
    s.(filterStatus := value, page := 1)
  }

  function TotalPages(s: State): (n: nat)
    ensures n * Pagination.PageSize >= s.total
    ensures n > 0 ==> (n - 1) * Pagination.PageSize < s.total
  {
    Pagination.TotalPages(s.total)
  }

  // The image list as a text field.

  /** An image URL the text field can carry unchanged. */
  predicate WellFormed(url: string) {
    url != "" && Trimmed(url) && ',' !in url
  }

  /** `filter(Boolean)` on strings. */
  function DropEmpty(xs: seq<string>): (r: seq<string>)
    ensures |r| <= |xs|
    ensures forall k :: 0 <= k < |r| ==> r[k] != ""
    ensures forall x :: x in r <==> x in xs && x != ""
    ensures (forall k :: 0 <= k < |xs| ==> xs[k] != "") ==> r == xs
  {
    if |xs| == 0 then []
    else
      assert xs == [xs[0]] + xs[1..];
      (if xs[0] == "" then [] else [xs[0]]) + DropEmpty(xs[1..])
  }

  /** `filter` works on each part of a list separately, so the kept pieces
      stay in their order, each as often as it occurs. */
  lemma {:induction false} DropEmptyAppend(a: seq<string>, b: seq<string>)
    ensures DropEmpty(a + b) == DropEmpty(a) + DropEmpty(b)
  {
    if |a| == 0 {
      assert a + b == b;
    } else {
      assert (a + b)[1..] == a[1..] + b;
      DropEmptyAppend(a[1..], b);
    }
  }

  /** A single piece is kept exactly when it is not empty. */
  lemma DropEmptyOne(x: string)
    ensures DropEmpty([x]) == (if x == "" then [] else [x])
  {
    assert [x][1..] == [];
  }

  function TrimAll(xs: seq<string>): (r: seq<string>)
    ensures |r| == |xs|
    ensures forall k :: 0 <= k < |r| ==> r[k] == Trim(xs[k])
  {
    seq(|xs|, k requires 0 <= k < |xs| => Trim(xs[k]))
  }

  /** `text ? text.split(',').map(s => s.trim()).filter(Boolean) : []`. */
  function ImagesOf(text: string): (urls: seq<string>)
    ensures forall k :: 0 <= k < |urls| ==> WellFormed(urls[k])
    ensures text == "" ==> urls == []
    ensures text != "" ==> |urls| <= |Split(text, ',')|
    ensures text != "" ==> forall x :: x in urls <==> x != "" && x in TrimAll(Split(text, ','))
  {
    if text == "" then []
    else
      var parts := Split(text, ',');
      var r := DropEmpty(TrimAll(parts));
      assert forall k :: 0 <= k < |r| ==> r[k] in TrimAll(parts);
      r
  }

  /** `(images || []).join(', ')`. */
  function JoinImages(urls: seq<string>): string {
    Join(urls, ", ")
  }

  /** Showing a list in the field and saving it gives the list back. */
  lemma ImagesRoundTrip(urls: seq<string>)
    requires forall k :: 0 <= k < |urls| ==> WellFormed(urls[k])
    ensures ImagesOf(JoinImages(urls)) == urls
  {
    if |urls| > 0 {
      if |urls| == 1 {
        assert JoinImages(urls) == urls[0];
      } else {
        assert JoinImages(urls) == urls[0] + ", " + Join(urls[1..], ", ");
      }
      TrimPieces(urls);
    }
  }

  /** The pieces of the joined text, trimmed, are the URLs again. */
  lemma TrimPieces(urls: seq<string>)
    requires |urls| >= 1
    requires forall k :: 0 <= k < |urls| ==> WellFormed(urls[k])
    ensures TrimAll(Split(JoinImages(urls), ',')) == urls
  {
    assert ", " == [','] + " ";
    SplitJoinPadded(urls, ',', " ");
    var parts := Split(JoinImages(urls), ',');
    forall k | 0 <= k < |urls| ensures Trim(parts[k]) == urls[k] {
      if k > 0 {
        TrimSpaced(" ", urls[k]);
      }
    }
  }

  /** Saving, reopening and saving again does not change the images sent:
      the text field normalises in one step. */
  lemma ImagesNormalised(text: string)
    ensures ImagesOf(JoinImages(ImagesOf(text))) == ImagesOf(text)
  {
    ImagesRoundTrip(ImagesOf(text));
  }

  // The modal.

  /** `openEdit(motorbike)`: copy the record, with the defaults of the code. */
  function FormOf(m: Motorbike): (f: Form)
    ensures f.name == OrElse(m.name, "") && f.licensePlate == OrElse(m.licensePlate, "")
    ensures f.vehicleType == OrElse(m.vehicleType, "SCOOTER")
    ensures f.status == OrElse(m.status, "AVAILABLE")
    ensures f.pricePerDay == OrElse(m.pricePerDay, "") && f.year == OrElse(m.year, "")
    ensures f.description == OrElse(m.description, "")
    ensures f.fuelCapacity == OrElse(m.fuelCapacity, "") && f.engineSize == OrElse(m.engineSize, "")
    ensures f.images == JoinImages(m.images.GetOr([]))
  {
    Form(OrElse(m.name, ""), OrElse(m.vehicleType, "SCOOTER"), OrElse(m.pricePerDay, ""),
         OrElse(m.description, ""), OrElse(m.licensePlate, ""), OrElse(m.year, ""),
         JoinImages(m.images.GetOr([])), OrElse(m.fuelCapacity, ""), OrElse(m.engineSize, ""),
         OrElse(m.status, "AVAILABLE"))
  }

  /** The required-field gate: name, licence plate and price. */
  predicate Complete(f: Form) {
    f.name != "" && f.licensePlate != "" && f.pricePerDay != ""
  }

  /** The payload `handleSave` builds: empty optional fields are left out,
      the images are split out of the text field. */
  function PayloadOf(f: Form): (p: MotorbikePayload)
    ensures p.name == f.name && p.vehicleType == f.vehicleType && p.licensePlate == f.licensePlate
    ensures p.pricePerDay == f.pricePerDay && p.status == f.status
    ensures p.description.None? <==> f.description == ""
    ensures p.year.None? <==> f.year == ""
    ensures p.fuelCapacity.None? <==> f.fuelCapacity == ""
    ensures p.engineSize.None? <==> f.engineSize == ""
    ensures OrElse(p.description, "") == f.description && OrElse(p.year, "") == f.year
    ensures OrElse(p.fuelCapacity, "") == f.fuelCapacity && OrElse(p.engineSize, "") == f.engineSize
    ensures forall k :: 0 <= k < |p.images| ==> WellFormed(p.images[k])
  {
    MotorbikePayload(f.name, f.vehicleType, f.pricePerDay, NonEmpty(f.description), f.licensePlate,
                     NonEmpty(f.year), ImagesOf(f.images), NonEmpty(f.fuelCapacity),
                     NonEmpty(f.engineSize), f.status)
  }

  /** Opening a record for edit and saving it untouched sends its images and
      its text fields back as they were. */
  lemma EditUnchanged(m: Motorbike)
    requires forall k :: 0 <= k < |m.images.GetOr([])| ==> WellFormed(m.images.GetOr([])[k])
    ensures PayloadOf(FormOf(m)).images == m.images.GetOr([])
    ensures PayloadOf(FormOf(m)).name == OrElse(m.name, "")
    ensures Truthy(m.description) ==> PayloadOf(FormOf(m)).description == m.description
  {
    ImagesRoundTrip(m.images.GetOr([]));
  }

  /** A stored record reopens as a form that passes the gate exactly when it
      has a name, a licence plate and a price. */
  lemma ReopenComplete(m: Motorbike)
    ensures Complete(FormOf(m)) <==> Truthy(m.name) && Truthy(m.licensePlate) && Truthy(m.pricePerDay)
    ensures Complete(FormOf(m)) ==>
              PayloadOf(FormOf(m)).name != "" && PayloadOf(FormOf(m)).licensePlate != ""
              && PayloadOf(FormOf(m)).pricePerDay != ""
  {
  }

  function OpenCreate(s: State): (r: State)
    ensures r.editor.showModal && r.editor.editingId.None? && r.editor.form == EmptyForm
    ensures r.(editor := s.editor) == s
  {
    s.(editor := Crud.OpenCreate(s.editor, EmptyForm))
  }

  function OpenEdit(s: State, m: Motorbike): (r: State)
    ensures r.editor.showModal && r.editor.editingId == Some(m.id) && r.editor.form == FormOf(m)
    ensures r.(editor := s.editor) == s
  {
    s.(editor := Crud.OpenEdit(s.editor, m.id, FormOf(m)))
  }

  /** `handleSave` on this page. */
  function Save(s: State, reply: Reply<Motorbike>): (r: Crud.Step<State>)
    ensures r.state.(editor := s.editor) == s
    ensures !Complete(s.editor.form) ==>
              r.state == s && r.effects == [Crud.Notify(Texts.incomplete, Toasts.Warning)]
    ensures Complete(s.editor.form) ==>
              |r.effects| >= 2
              && r.effects[0] == Crud.Send(Crud.SaveCall(Api.Motorbikes, s.editor.editingId,
                                                         Api.MotorbikeBody(PayloadOf(s.editor.form))))
              && !r.state.editor.saving
    ensures Complete(s.editor.form) && Succeeded(reply) ==> !r.state.editor.showModal && Crud.Reload in r.effects
    ensures Complete(s.editor.form) && reply.Received? && !reply.envelope.success ==>
              r.state.editor.showModal == s.editor.showModal
              && r.effects[1] == Crud.Notify(FailureText(ErrorThenMessage, reply.envelope, "Có lỗi xảy ra"), Toasts.Error)
  {
    var f := s.editor.form;
    var e := Crud.Save(Api.Motorbikes, Texts, s.editor, Complete(f), Api.MotorbikeBody(PayloadOf(f)), reply);
    Crud.Step(s.(editor := e.editor), e.effects)
  }

  /** Saving a freshly opened create form only warns: the empty form has no
      name, plate or price. */
  lemma EmptyFormRefused(s: State, reply: Reply<Motorbike>)
    ensures !Crud.Sends(Save(OpenCreate(s), reply).effects)
    ensures Save(OpenCreate(s), reply).state == OpenCreate(s)
  {
  }

  function AskDelete(s: State, id: string): (r: State)
    ensures r.deleteId == Some(id) && r.(deleteId := s.deleteId) == s
  {
    s.(deleteId := Some(id))
  }

  function CancelDelete(s: State): (r: State)
    ensures r.deleteId.None? && r.(deleteId := s.deleteId) == s
  {
    s.(deleteId := None)
  }

  /** `handleDelete` on this page. */
  function ConfirmDelete(s: State, reply: Reply<Motorbike>): (r: Crud.Step<State>)
    ensures r.state.(deleteId := s.deleteId) == s
    ensures !Truthy(s.deleteId) ==> r.state == s && r.effects == []
    ensures Truthy(s.deleteId) ==> |r.effects| >= 2 && r.effects[0] == Crud.Send(Api.Delete(Api.Motorbikes, s.deleteId.value))
    ensures Truthy(s.deleteId) && Succeeded(reply) ==> r.state.deleteId.None? && Crud.Reload in r.effects
    ensures !Succeeded(reply) ==> r.state == s
    ensures Truthy(s.deleteId) && reply.Received? && !reply.envelope.success ==>
              r.effects[1] == Crud.Notify(FailureText(ErrorOnly, reply.envelope, "Xóa thất bại"), Toasts.Error)
  {
    var d := Crud.ConfirmDelete(Api.Motorbikes, Texts, s.deleteId, reply);
    Crud.Step(s.(deleteId := d.deleteId), d.effects)
  }
}

=== FILE: pagination.dfy ===
/**
 Paging shared by the list pages: ten rows a page, `Math.ceil(total / 10)`
 pages, the rows of a page as `Array.prototype.slice` cuts them, and the
 pagination bar (previous, up to five numbered buttons, next).
 */
module Pagination {

  const PageSize := 10
  const MaxButtons := 5

  function Min(a: int, b: int): int {
    if a < b then a else b
  }

  /** `Math.ceil(total / limit)`: the fewest pages that hold `total` rows. */
  function TotalPages(total: nat): (n: nat)
    ensures n * PageSize >= total
    ensures n > 0 ==> (n - 1) * PageSize < total
    ensures n == 0 <==> total == 0
  {
    (total + PageSize - 1) / PageSize
  }

  /** Where `slice` puts an index: negative ones count from the end, and
      both directions are clamped to the sequence. */
  function Clamp(i: int, len: nat): (r: nat)
    ensures r <= len
    ensures 0 <= i <= len ==> r == i
    ensures i > len ==> r == len
  {
    if i < 0 then (if len + i < 0 then 0 else len + i)
    else if i > len then len
    else i
  }

  /** `xs.slice(start, end)`. */
  function Slice<T>(xs: seq<T>, start: int, end: int): (r: seq<T>)
    ensures |r| <= |xs|
    ensures 0 <= start <= end <= |xs| ==> r == xs[start..end]
  {
    var a := Clamp(start, |xs|);
    var b := Clamp(end, |xs|);
    if a < b then xs[a..b] else []
  }

  /** `xs.slice((page - 1) * limit, page * limit)`: the rows of one page. */
  function PageRows<T>(xs: seq<T>, page: int): (r: seq<T>)
    ensures page >= 1 ==> |r| <= PageSize
    ensures page >= 1 && (page - 1) * PageSize <= |xs| ==>
              r == xs[(page - 1) * PageSize..Min(page * PageSize, |xs|)]
    ensures page > TotalPages(|xs|) ==> r == []
  {
    Slice(xs, (page - 1) * PageSize, page * PageSize)
  }

  /** Pages 1 to `k`, one after the other. */
  function Pages<T>(xs: seq<T>, k: nat): seq<T> {
    if k == 0 then [] else Pages(xs, k - 1) + PageRows(xs, k)
  }

  /** The first `k` pages are exactly the first `k * 10` rows. */
  lemma {:induction false} PagesArePrefix<T>(xs: seq<T>, k: nat)
    ensures Pages(xs, k) == xs[..Min(k * PageSize, |xs|)]
  {
    if k > 0 {
      PagesArePrefix(xs, k - 1);
      var lo := Min((k - 1) * PageSize, |xs|);
      var hi := Min(k * PageSize, |xs|);
      if (k - 1) * PageSize <= |xs| {
        assert PageRows(xs, k) == xs[lo..hi];
      } else {
        assert k > TotalPages(|xs|);
        assert PageRows(xs, k) == [];
      }
      assert xs[..lo] + xs[lo..hi] == xs[..hi];
    }
  }

  /** Paging loses and repeats nothing: the pages in order are the whole list. */
  lemma PagesCoverAll<T>(xs: seq<T>)
    ensures Pages(xs, TotalPages(|xs|)) == xs
  {
    PagesArePrefix(xs, TotalPages(|xs|));
  }

  /** The pagination bar as rendered. */
  datatype Bar = Bar(visible: bool, prevDisabled: bool, nextDisabled: bool, buttons: seq<int>)

  /** The bar sits inside the table branch, which renders only when the list
      is not loading and has rows to show (`shown` of them); within it the bar
      appears only with more than one page. */
  function BarOf(page: int, totalPages: nat, loading: bool, shown: nat): (b: Bar)
    ensures b.visible <==> !loading && shown > 0 && totalPages > 1
    ensures b.prevDisabled <==> page <= 1
    ensures b.nextDisabled <==> page >= totalPages
    ensures |b.buttons| == Min(totalPages, MaxButtons)
    ensures forall k :: 0 <= k < |b.buttons| ==> b.buttons[k] == k + 1
  {
    Bar(!loading && shown > 0 && totalPages > 1, page <= 1, page >= totalPages,
        seq(Min(totalPages, MaxButtons), k => k + 1))
  }

  datatype Move = Previous | Next | Goto(target: int)

  /** A control that can be clicked: the bar is shown and the button is live. */
  predicate Enabled(b: Bar, m: Move) {
    b.visible &&
    match m
    case Previous => !b.prevDisabled
    case Next => !b.nextDisabled
    case Goto(p) => p in b.buttons
  }

  function Go(page: int, m: Move): int {
    match m
    case Previous => page - 1
    case Next => page + 1
    case Goto(p) => p
  }

  /** Clicking the bar never leaves page 1 behind, and from a page that exists
      it only reaches pages that exist. */
  lemma MoveStaysInRange(page: int, totalPages: nat, loading: bool, shown: nat, m: Move)
    requires page >= 1
    requires Enabled(BarOf(page, totalPages, loading, shown), m)
    ensures Go(page, m) >= 1
    ensures page <= totalPages ==> Go(page, m) <= totalPages
  {
    var b := BarOf(page, totalPages, loading, shown);
    if m.Goto? {
      var k :| 0 <= k < |b.buttons| && b.buttons[k] == m.target;
    }
  }
}

=== FILE: promotions.dfy ===
/**
 The promotion page: the whole promotion list, the create/edit modal over a
 seven-field form with an active switch and two dates, and the delete
 confirmation. Date handling goes through the browser's `Date`, which is
 not modelled: the two conversions are parameters.
 */
module Promotions {
  import opened Values
  import opened Envelopes
  import opened Schema
  import Api
  import Crud
  import Toasts

  datatype Form = Form(
    title: string, description: string, image: string, badge: string, isActive: bool,
    startDate: string, endDate: string)

  const EmptyForm := Form("", "", "", "", true, "", "")

  const Texts := Crud.Texts(
    "Vui lòng điền đầy đủ thông tin bắt buộc", "Tạo ưu đãi mới thành công!",
    "Cập nhật ưu đãi thành công!", "Có lỗi xảy ra", ErrorOnly, "Xóa ưu đãi thành công!")

  /** `new Date(d).toISOString()`: `None` where the browser throws on an
      invalid date. */
  type ToIso = string -> Option<string>

  /** `new Date(d).toISOString().split('T')[0]`: the calendar day of a stored date. */
  type DayOf = string -> string

  datatype State = State(promotions: seq<Promotion>, editor: Crud.Editor<Form>, deleteId: Option<string>)

  function Initial(): State {
    State([], Crud.Editor(false, None, EmptyForm, false), None)
  }

  function Load(s: State, reply: Reply<seq<Promotion>>): (r: State)
    ensures !Succeeded(reply) ==> r == s
    ensures Succeeded(reply) ==> r.promotions == reply.envelope.data.GetOr([])
    ensures Succeeded(reply) && reply.envelope.data.None? ==> r.promotions == []
    ensures r.(promotions := s.promotions) == s
  {
    if Succeeded(reply) then s.(promotions := reply.envelope.data.GetOr([])) else s
  }

  /** `openEdit(promo)`: missing texts become empty; `isActive` defaults to
      true only when it is absent, so a stored `false` is kept. */
  function FormOf(p: Promotion, dayOf: DayOf): (f: Form)
    ensures f.title == OrElse(p.title, "") && f.description == OrElse(p.description, "")
    ensures f.image == OrElse(p.image, "") && f.badge == OrElse(p.badge, "")
    ensures p.isActive.Some? ==> f.isActive == p.isActive.value
    ensures p.isActive.None? ==> f.isActive
    ensures !Truthy(p.startDate) ==> f.startDate == ""
    ensures !Truthy(p.endDate) ==> f.endDate == ""
    ensures Truthy(p.startDate) ==> f.startDate == dayOf(p.startDate.value)
    ensures Truthy(p.endDate) ==> f.endDate == dayOf(p.endDate.value)
  {
    Form(OrElse(p.title, ""), OrElse(p.description, ""), OrElse(p.image, ""), OrElse(p.badge, ""),
         p.isActive.GetOr(true),
         if Truthy(p.startDate) then dayOf(p.startDate.value) else "",
         if Truthy(p.endDate) then dayOf(p.endDate.value) else "")
  }

  /** The required-field gate: title, description and image. */
  predicate Complete(f: Form) {
    f.title != "" && f.description != "" && f.image != ""
  }

  /** An empty date is left out; a filled one is converted, which can throw. */
  function DateField(d: string, toIso: ToIso): (r: Option<Option<string>>)
    ensures d == "" ==> r == Some(None)
    ensures d != "" ==> (r.Some? <==> toIso(d).Some?)
    ensures d != "" && r.Some? ==> r.value == toIso(d)
  {
    if d == "" then Some(None)
    else match toIso(d)
      case None => None
      case Some(iso) => Some(Some(iso))
  }

  /** The payload `handleSave` builds, or `None` where building it throws. */
  function PayloadOf(f: Form, toIso: ToIso): (p: Option<PromotionPayload>)
    ensures p.Some? <==> DateField(f.startDate, toIso).Some? && DateField(f.endDate, toIso).Some?
    ensures p.Some? ==>
              p.value.title == f.title && p.value.description == f.description && p.value.image == f.image
              && p.value.isActive == f.isActive
              && (p.value.badge.None? <==> f.badge == "") && OrElse(p.value.badge, "") == f.badge
              && (p.value.startDate.None? <==> f.startDate == "")
              && (p.value.endDate.None? <==> f.endDate == "")
  {
    var start := DateField(f.startDate, toIso);
    var end := DateField(f.endDate, toIso);
    if start.Some? && end.Some? then
      Some(PromotionPayload(f.title, f.description, f.image, NonEmpty(f.badge), f.isActive, start.value, end.value))
    else None
  }

  /** A stored promotion reopens as a form that passes the gate exactly when
      it has a title, a description and an image. */
  lemma ReopenComplete(p: Promotion, dayOf: DayOf)
    ensures Complete(FormOf(p, dayOf)) <==> Truthy(p.title) && Truthy(p.description) && Truthy(p.image)
  {
  }

  function OpenCreate(s: State): (r: State)
    ensures r.editor.showModal && r.editor.editingId.None? && r.editor.form == EmptyForm
    ensures r.(editor := s.editor) == s
  {
    s.(editor := Crud.OpenCreate(s.editor, EmptyForm))
  }

  function OpenEdit(s: State, p: Promotion, dayOf: DayOf): (r: State)
    ensures r.editor.showModal && r.editor.editingId == Some(p.id) && r.editor.form == FormOf(p, dayOf)
    ensures r.(editor := s.editor) == s
  {
    s.(editor := Crud.OpenEdit(s.editor, p.id, FormOf(p, dayOf)))
  }

  /** `handleSave` on this page. A date the browser cannot convert throws
      inside the `try`, before any request, and ends in the connection toast. */
  function Save(s: State, toIso: ToIso, reply: Reply<Promotion>): (r: Crud.Step<State>)
    ensures r.state.(editor := s.editor) == s
    ensures r.state.editor.form == s.editor.form && r.state.editor.editingId == s.editor.editingId
    ensures !Complete(s.editor.form) ==>
              r.state == s && r.effects == [Crud.Notify(Texts.incomplete, Toasts.Warning)]
    ensures Complete(s.editor.form) && PayloadOf(s.editor.form, toIso).None? ==>
              !Crud.Sends(r.effects) && r.effects == [Crud.Notify(Crud.Unreachable, Toasts.Error)]
              && r.state.editor == s.editor.(saving := false)
    ensures Complete(s.editor.form) && PayloadOf(s.editor.form, toIso).Some? ==>
              |r.effects| >= 2
              && r.effects[0] == Crud.Send(Crud.SaveCall(Api.Promotions, s.editor.editingId,
                                                         Api.PromotionBody(PayloadOf(s.editor.form, toIso).value)))
    ensures Complete(s.editor.form) ==> !r.state.editor.saving
    ensures Complete(s.editor.form) && PayloadOf(s.editor.form, toIso).Some? && Succeeded(reply) ==>
              !r.state.editor.showModal && Crud.Reload in r.effects
              && r.effects[1] == Crud.Notify(if Truthy(s.editor.editingId) then Texts.updated else Texts.created, Toasts.Success)
    ensures Complete(s.editor.form) && !Succeeded(reply) ==>
              r.state.editor.showModal == s.editor.showModal && Crud.Reload !in r.effects
    ensures Complete(s.editor.form) && PayloadOf(s.editor.form, toIso).Some? && reply.TransportError? ==>
              r.effects[1] == Crud.Notify(Crud.Unreachable, Toasts.Error)
    ensures Complete(s.editor.form) && PayloadOf(s.editor.form, toIso).Some? && reply.Received? && !reply.envelope.success ==>
              r.effects[1] == Crud.Notify(FailureText(ErrorOnly, reply.envelope, "Có lỗi xảy ra"), Toasts.Error)
  {
    var f := s.editor.form;
    if !Complete(f) then Crud.Step(s, [Crud.Notify(Texts.incomplete, Toasts.Warning)])
    else match PayloadOf(f, toIso)
      case None => Crud.Step(s.(editor := s.editor.(saving := false)), [Crud.Notify(Crud.Unreachable, Toasts.Error)])
      case Some(p) =>
        var e := Crud.Save(Api.Promotions, Texts, s.editor, true, Api.PromotionBody(p), reply);
        Crud.Step(s.(editor := e.editor), e.effects)
  }

  /** Saving a freshly opened create form only warns. */
  lemma EmptyFormRefused(s: State, toIso: ToIso, reply: Reply<Promotion>)
    ensures !Crud.Sends(Save(OpenCreate(s), toIso, reply).effects)
    ensures Save(OpenCreate(s), toIso, reply).state == OpenCreate(s)
  {
  }

  /** Opening a dateless promotion and saving it untouched sends its texts,
      its badge only if it had one, and its active flag, an explicit `false`
      included. */
  lemma EditUnchanged(s: State, p: Promotion, dayOf: DayOf, toIso: ToIso, reply: Reply<Promotion>)
    requires Truthy(p.title) && Truthy(p.description) && Truthy(p.image)
    requires !Truthy(p.startDate) && !Truthy(p.endDate)
    ensures var body := PromotionPayload(p.title.value, p.description.value, p.image.value,
                                         if Truthy(p.badge) then p.badge else None, p.isActive.GetOr(true), None, None);
            Save(OpenEdit(s, p, dayOf), toIso, reply).effects[0]
            == Crud.Send(Crud.SaveCall(Api.Promotions, Some(p.id), Api.PromotionBody(body)))
  {
    var f := FormOf(p, dayOf);
    assert PayloadOf(f, toIso).Some?;
    OrElseNonEmpty(OrElse(p.badge, ""));
  }

  function AskDelete(s: State, id: string): (r: State)
    ensures r.deleteId == Some(id) && r.(deleteId := s.deleteId) == s
  {
    s.(deleteId := Some(id))
  }

  /** `handleDelete` on this page. */
  function ConfirmDelete(s: State, reply: Reply<Promotion>): (r: Crud.Step<State>)
    ensures r.state.(deleteId := s.deleteId) == s
    ensures !Truthy(s.deleteId) ==> r.state == s && r.effects == []
    ensures Truthy(s.deleteId) ==> |r.effects| >= 2 && r.effects[0] == Crud.Send(Api.Delete(Api.Promotions, s.deleteId.value))
    ensures Truthy(s.deleteId) && Succeeded(reply) ==> r.state.deleteId.None? && Crud.Reload in r.effects
    ensures !Succeeded(reply) ==> r.state == s
  {
    var d := Crud.ConfirmDelete(Api.Promotions, Texts, s.deleteId, reply);
    Crud.Step(s.(deleteId := d.deleteId), d.effects)
  }
}

=== FILE: rentals.dfy ===
/**
 The rental page: the whole rental list is fetched once and filtered by
 status and paged in the browser; a modal changes one rental's status.
 */
module Rentals {
  import opened Values
  import opened Envelopes
  import opened Schema
  import Api
  import Crud
  import Pagination
  import Toasts

  const Updated := "Cập nhật trạng thái thành công!"
  const UpdateFailed := "Cập nhật thất bại"

  datatype StatusModal = StatusModal(id: string, currentStatus: string)

  datatype State = State(
    all: seq<Rental>, filterStatus: string, page: int,
    modal: Option<StatusModal>, newStatus: string, saving: bool)

  function Initial(): State {
    State([], "", 1, None, "", false)
  }

  // Loading.

  /** What `res.data.rentals || res.data || []` leaves in the list: either
      rows, or an object that is not a list at all. */
  datatype Stored = List(rows: seq<Rental>) | NotAList

  /** The list-extraction expression as written. An array is truthy even when
      empty, and a successful reply's `data` is truthy, so the final `[]` is
      never reached: a wrapped reply without `rentals` stores the wrapper. */
  function StoredAsWritten(d: RentalList): (r: Stored)
    ensures d.Bare? ==> r == List(d.rows)
    ensures d.Keyed? && d.rentals.Some? ==> r == List(d.rentals.value)
    ensures r.NotAList? <==> d.Keyed? && d.rentals.None?
  {
    match d
    case Keyed(rentals, _) => if rentals.Some? then List(rentals.value) else NotAList
    case Bare(rows) => List(rows)
  }

  /** A reply holding only a count, as a server with no rentals may send it,
      leaves a non-list where the page then calls `filter` and `slice`. */
  lemma CountOnlyReplyIsNotAList()
    ensures StoredAsWritten(Keyed(None, Some(0))).NotAList?
  {
  }

  /** The evidently intended extraction: the rows of either shape, and an
      empty list when a wrapper carries none. */
  function RowsOf(d: RentalList): (rows: seq<Rental>)
    ensures d.Bare? ==> rows == d.rows
    ensures d.Keyed? ==> rows == d.rentals.GetOr([])
  {
    match d
    case Keyed(rentals, _) => rentals.GetOr([])
    case Bare(rows) => rows
  }

  /** The corrected extraction changes nothing where the code as written
      already produced a list. */
  lemma RowsOfAgrees(d: RentalList)
    ensures StoredAsWritten(d).List? ==> StoredAsWritten(d).rows == RowsOf(d)
    ensures StoredAsWritten(d).NotAList? ==> RowsOf(d) == []
  {
  }

  /** `loadRentals`, with the corrected extraction. */
  function Load(s: State, reply: Reply<RentalList>): (r: State)
    ensures !Delivered(reply) ==> r == s
    ensures Delivered(reply) ==> r.all == RowsOf(reply.envelope.data.value)
    ensures r.(all := s.all) == s
  {
    if Delivered(reply) then s.(all := RowsOf(reply.envelope.data.value)) else s
  }

  /** `rentalApi.getAll()` as this page calls it. */
  function LoadCall(): (c: Api.Call)
    ensures c.verb == Api.GET && c.body.None? && c.endpoint == Api.Item(Api.Rentals, "all")
  {
    Api.RentalsGetAll(None, None, None)
  }

  // Filtering and paging in the browser.

  /** `rentals.filter(r => r.status === status)`. */
  function FilterBy(xs: seq<Rental>, status: string): (r: seq<Rental>)
    ensures |r| <= |xs|
    ensures forall x :: x in r <==> x in xs && x.status == status
  {
    if |xs| == 0 then []
    else
      var rest := FilterBy(xs[1..], status);
      assert forall x :: x in xs <==> x == xs[0] || x in xs[1..];
      if xs[0].status == status then [xs[0]] + rest else rest
  }

  /** Filtering distributes over concatenation: it keeps the list's order. */
  lemma {:induction false} FilterAppend(a: seq<Rental>, b: seq<Rental>, status: string)
    ensures FilterBy(a + b, status) == FilterBy(a, status) + FilterBy(b, status)
  {
    if |a| == 0 {
      assert a + b == b;
    } else {
      assert (a + b)[1..] == a[1..] + b;
      FilterAppend(a[1..], b, status);
    }
  }

  /** Filtering twice by the same status is filtering once. */
  lemma {:induction false} FilterIdempotent(xs: seq<Rental>, status: string)
    ensures FilterBy(FilterBy(xs, status), status) == FilterBy(xs, status)
  {
    if |xs| > 0 {
      FilterIdempotent(xs[1..], status);
      if xs[0].status == status {
        assert ([xs[0]] + FilterBy(xs[1..], status))[1..] == FilterBy(xs[1..], status);
      }
    }
  }

  /** The tab's rows: everything on "all", otherwise one status. */
  function Filtered(s: State): (r: seq<Rental>)
    ensures s.filterStatus == "" ==> r == s.all
    ensures forall x :: x in r <==> x in s.all && (s.filterStatus == "" || x.status == s.filterStatus)
  {
    if s.filterStatus == "" then s.all else FilterBy(s.all, s.filterStatus)
  }

  /** `total`: the number of rentals on the current tab. */
  function Total(s: State): (n: nat)
    ensures n == |Filtered(s)|
    ensures n <= |s.all|
  {
    |Filtered(s)|
  }

  /** `Math.ceil(total / limit)` over the tab's rentals. */
  function TotalPages(s: State): (n: nat)
    ensures n * Pagination.PageSize >= Total(s)
    ensures n > 0 ==> (n - 1) * Pagination.PageSize < Total(s)
    ensures n == 0 <==> Total(s) == 0
  {
    Pagination.TotalPages(Total(s))
  }

  /** The rows on screen: the current page's run of the tab's rentals. */
  function Rows(s: State): (r: seq<Rental>)
    ensures s.page >= 1 ==> |r| <= Pagination.PageSize
    ensures s.page >= 1 && (s.page - 1) * Pagination.PageSize <= Total(s) ==>
              r == Filtered(s)[(s.page - 1) * Pagination.PageSize..Pagination.Min(s.page * Pagination.PageSize, Total(s))]
    ensures s.page > TotalPages(s) ==> r == []
    ensures forall x :: x in r ==> x in s.all && (s.filterStatus == "" || x.status == s.filterStatus)
  {
    Pagination.PageRows(Filtered(s), s.page)
  }

  /** The pagination bar under the table, whose branch needs page rows. */
  function Bar(s: State, loading: bool): Pagination.Bar {
    Pagination.BarOf(s.page, TotalPages(s), loading, |Rows(s)|)
  }

  /** A reload keeps the page number, so a reload that takes the only row of
      the last page out of the tab (a status change to another tab, say)
      leaves the page past the end: the table branch shows the empty state
      and no bar, although the tab still has rentals. */
  lemma StatusChangeStrandsPage(s: State, reply: Reply<RentalList>)
    requires s.page >= 2
    requires Delivered(reply)
    requires Total(Load(s, reply)) == (s.page - 1) * Pagination.PageSize
    ensures Load(s, reply).page == s.page
    ensures Total(Load(s, reply)) > 0
    ensures Rows(Load(s, reply)) == []
    ensures !Bar(Load(s, reply), false).visible
  {
    var l := Load(s, reply);
    assert TotalPages(l) < l.page;
  }

  /** The evidently intended reload: a page past the last one falls back to
      the last page. */
  function FitPage(s: State): (r: State)
    ensures r.(page := s.page) == s
    ensures Total(r) == Total(s) && TotalPages(r) == TotalPages(s)
    ensures s.page <= TotalPages(s) || Total(s) == 0 ==> r == s
    ensures s.page >= 1 && Total(s) > 0 ==> 1 <= r.page <= TotalPages(s) && |Rows(r)| > 0
    ensures s.page >= 1 && Total(s) > 0 ==> (Bar(r, false).visible <==> TotalPages(s) > 1)
  {
    var n := TotalPages(s);
    var r := if n >= 1 && s.page > n then s.(page := n) else s;
    assert Filtered(r) == Filtered(s);
    if s.page >= 1 && Total(s) > 0 then
      assert (r.page - 1) * Pagination.PageSize <= (n - 1) * Pagination.PageSize < Total(s);
      r
    else r
  }

  /** A reload that keeps the table on a page with rows whenever the tab has
      rentals. */
  function Reloaded(s: State, reply: Reply<RentalList>): (r: State)
    ensures r.all == Load(s, reply).all && r.filterStatus == s.filterStatus
    ensures r.page == s.page || r.page == TotalPages(r)
    ensures s.page >= 1 && Total(r) > 0 ==> 1 <= r.page <= TotalPages(r) && |Rows(r)| > 0
    ensures s.page >= 1 && Total(r) > 0 ==> (Bar(r, false).visible <==> TotalPages(r) > 1)
  {
    FitPage(Load(s, reply))
  }

  /** A tab click: new filter, back to page 1. */
  function SetFilter(s: State, status: string): (r: State)
    ensures r.filterStatus == status && r.page == 1
    ensures r.(filterStatus := s.filterStatus, page := s.page) == s
  {
    s.(filterStatus := status, page := 1)
  }

  /** After a tab click the table shows the first rows of that status. */
  lemma SetFilterShowsFirstPage(s: State, status: string)
    ensures Rows(SetFilter(s, status)) == Filtered(SetFilter(s, status))[..Pagination.Min(Pagination.PageSize, Total(SetFilter(s, status)))]
  {
  }

  /** Paging through a tab shows each of its rows once, in order. */
  lemma PagesShowTab(s: State)
    ensures Pagination.Pages(Filtered(s), TotalPages(s)) == Filtered(s)
  {
    Pagination.PagesCoverAll(Filtered(s));
  }

  // The status modal.

  /** `openStatusModal(rental)`: the select starts at the current status. */
  function OpenStatusModal(s: State, rental: Rental): (r: State)
    ensures r.modal == Some(StatusModal(rental.id, rental.status)) && r.newStatus == rental.status
    ensures r.(modal := s.modal, newStatus := s.newStatus) == s
  {
    s.(modal := Some(StatusModal(rental.id, rental.status)), newStatus := rental.status)
  }

  function ChooseStatus(s: State, status: string): (r: State)
    ensures r.newStatus == status && r.(newStatus := s.newStatus) == s
  {
    s.(newStatus := status)
  }

  /** The update button is disabled while saving and while the chosen status
      is the current one. */
  predicate UpdateDisabled(s: State)
    requires s.modal.Some?
  {
    s.saving || s.newStatus == s.modal.value.currentStatus
  }

  /** A freshly opened modal cannot submit until another status is chosen. */
  lemma OpenedModalDisabled(s: State, rental: Rental, status: string)
    ensures UpdateDisabled(OpenStatusModal(s, rental))
    ensures !s.saving ==>
              (UpdateDisabled(ChooseStatus(OpenStatusModal(s, rental), status)) <==> status == rental.status)
  {
  }

  /** An enabled update button always sends a status other than the
      rental's current one. */
  lemma EnabledSendsChange(s: State, reply: Reply<Rental>)
    requires s.modal.Some? && !UpdateDisabled(s)
    ensures UpdateStatus(s, reply).effects[0] == Crud.Send(Api.UpdateStatus(s.modal.value.id, s.newStatus))
    ensures s.newStatus != s.modal.value.currentStatus
  {
  }

  /** `handleUpdateStatus`: nothing without a modal; otherwise the chosen
      status goes to the rental's status path. */
  function UpdateStatus(s: State, reply: Reply<Rental>): (r: Crud.Step<State>)
    ensures s.modal.None? ==> r.state == s && r.effects == []
    ensures s.modal.Some? ==>
              |r.effects| >= 2 && !r.state.saving
              && r.effects[0] == Crud.Send(Api.UpdateStatus(s.modal.value.id, s.newStatus))
    ensures s.modal.Some? && Succeeded(reply) ==>
              r.state.modal.None? && r.effects[1] == Crud.Notify(Updated, Toasts.Success) && Crud.Reload in r.effects
    ensures !Succeeded(reply) ==> r.state.modal == s.modal && Crud.Reload !in r.effects
    ensures s.modal.Some? && reply.TransportError? ==> r.effects[1] == Crud.Notify(Crud.Unreachable, Toasts.Error)
    ensures s.modal.Some? && reply.Received? && !reply.envelope.success ==>
              r.effects[1] == Crud.Notify(FailureText(ErrorThenMessage, reply.envelope, UpdateFailed), Toasts.Error)
    ensures r.state.(modal := s.modal, saving := s.saving) == s
  {
    match s.modal
    case None => Crud.Step(s, [])
    case Some(m) =>
      var sent := Crud.Send(Api.UpdateStatus(m.id, s.newStatus));
      var done := s.(saving := false);
      match reply
      case TransportError => Crud.Step(done, [sent, Crud.Notify(Crud.Unreachable, Toasts.Error)])
      case Received(env) =>
        if env.success then Crud.Step(done.(modal := None), [sent, Crud.Notify(Updated, Toasts.Success), Crud.Reload])
        else Crud.Step(done, [sent, Crud.Notify(FailureText(ErrorThenMessage, env, UpdateFailed), Toasts.Error)])
  }

  /** A failed update keeps the modal and the choice, so trying again sends
      the same request. */
  lemma UpdateRetry(s: State, first: Reply<Rental>, second: Reply<Rental>)
    requires !Succeeded(first)
    ensures UpdateStatus(UpdateStatus(s, first).state, second).effects == UpdateStatus(s, second).effects
  {
  }
}

=== FILE: schema.dfy ===
/**
 The shapes exchanged with the REST API: the records the server returns
 (every field the pages read through `x.field || default` is optional), the
 list wrappers around them, and the request payloads the pages send.
 Numbers the pages parse with `parseFloat` / `parseInt` are kept as their text.
 */
module Schema {
  import opened Values

  /** A user profile as `JSON.stringify` writes it; an object never
      serialises to the empty string. */
  type UserJson = s: string | s != "" witness "{}"

  /** The `user` object of a login response: its role and its serialised form. */
  datatype LoginUser = LoginUser(role: Option<string>, profile: UserJson)

  /** The `data` of a login response; either spelling of each token may be sent. */
  datatype LoginData = LoginData(
    accessToken: Option<string>, access_token: Option<string>,
    refreshToken: Option<string>, refresh_token: Option<string>,
    user: Option<LoginUser>)

  datatype Motorbike = Motorbike(
    id: string, name: Option<string>, vehicleType: Option<string>, pricePerDay: Option<string>,
    description: Option<string>, licensePlate: Option<string>, year: Option<string>,
    images: Option<seq<string>>, fuelCapacity: Option<string>, engineSize: Option<string>,
    status: Option<string>)

  datatype Rental = Rental(id: string, status: string, totalPrice: Option<int>)

  datatype UserRecord = UserRecord(
    id: string, email: string, name: Option<string>, phone: Option<string>,
    address: Option<string>, role: Option<string>)

  datatype Blog = Blog(
    id: string, title: Option<string>, description: Option<string>, content: Option<string>,
    image: Option<string>, tag: Option<string>, author: Option<string>)

  datatype Promotion = Promotion(
    id: string, title: Option<string>, description: Option<string>, image: Option<string>,
    badge: Option<string>, isActive: Option<bool>, startDate: Option<string>, endDate: Option<string>)

  /** `{<resource>: [...], total}` as the motorbike and user lists come back. */
  datatype Listing<E> = Listing(items: Option<seq<E>>, total: Option<nat>)

  /** The rental list comes either wrapped (`{rentals, total}`) or as a bare array. */
  datatype RentalList = Keyed(rentals: Option<seq<Rental>>, total: Option<nat>) | Bare(rows: seq<Rental>)

  /** `n || d` on an optional number: 0 and a missing value are both falsy. */
  function CountOr(n: Option<nat>, default: nat): (r: nat)
    ensures n.Some? && n.value != 0 ==> r == n.value
    ensures n.None? || n.value == 0 ==> r == default
    ensures r == default || n == Some(r)
    ensures r == 0 ==> default == 0
  {
    if n.Some? && n.value != 0 then n.value else default
  }

  // Request payloads.

  datatype Credentials = Credentials(email: string, password: string)

  datatype Registration = Registration(email: string, password: string, name: string, phone: Option<string>)

  datatype MotorbikePayload = MotorbikePayload(
    name: string, vehicleType: string, pricePerDay: string, description: Option<string>,
    licensePlate: string, year: Option<string>, images: seq<string>,
    fuelCapacity: Option<string>, engineSize: Option<string>, status: string)

  /** The user edit form, sent as it is. */
  datatype UserForm = UserForm(name: string, phone: string, address: string, role: string)

  /** The blog form, sent as it is. */
  datatype BlogFields = BlogFields(
    title: string, description: string, content: string, image: string, tag: string, author: string)

  datatype PromotionPayload = PromotionPayload(
    title: string, description: string, image: string, badge: Option<string>, isActive: bool,
    startDate: Option<string>, endDate: Option<string>)
}

=== FILE: session.dfy ===
/**
 The persisted session: access token, refresh token and cached user profile
 kept under three keys of the browser's key/value storage. Outside a browser
 there is no window and every read answers null.
 */
module Session {
  import opened Values
  import opened Schema

  const AccessKey := "goride_access_token"
  const RefreshKey := "goride_refresh_token"
  const UserKey := "goride_user"

  /** The browser storage as the code sees it: whether `window` exists, and
      the stored entries. */
  datatype Storage = Storage(hasWindow: bool, items: map<string, string>)

  /** The entries of `s` and `t` agree on `key`. */
  predicate SameEntry(s: Storage, t: Storage, key: string) {
    (key in s.items <==> key in t.items) && (key in s.items ==> s.items[key] == t.items[key])
  }

  /** A guarded `getItem`: null without a window, else the stored value. */
  function Read(s: Storage, key: string): (v: Option<string>)
    ensures !s.hasWindow ==> v.None?
    ensures s.hasWindow ==> (v.Some? <==> key in s.items)
    ensures v.Some? ==> key in s.items && v.value == s.items[key]
  {
    if s.hasWindow && key in s.items then Some(s.items[key]) else None
  }

  function GetAccessToken(s: Storage): (t: Option<string>)
    ensures !s.hasWindow ==> t.None?
    ensures s.hasWindow && AccessKey in s.items ==> t == Some(s.items[AccessKey])
    ensures AccessKey !in s.items ==> t.None?
  {
    Read(s, AccessKey)
  }

  function GetRefreshToken(s: Storage): (t: Option<string>)
    ensures !s.hasWindow ==> t.None?
    ensures s.hasWindow && RefreshKey in s.items ==> t == Some(s.items[RefreshKey])
    ensures RefreshKey !in s.items ==> t.None?
  {
    Read(s, RefreshKey)
  }

  /** The cached profile; a stored empty string reads as null (`user ? … : null`). */
  function GetUser(s: Storage): (u: Option<UserJson>)
    ensures !s.hasWindow ==> u.None?
    ensures u.Some? <==> s.hasWindow && UserKey in s.items && s.items[UserKey] != ""
    ensures u.Some? ==> u.value == s.items[UserKey]
  {
    var v := Read(s, UserKey);
    if Truthy(v) then Some(v.value) else None
  }

  /** `!!getAccessToken()`: a stored empty token does not count. */
  function IsLoggedIn(s: Storage): (b: bool)
    ensures b <==> s.hasWindow && AccessKey in s.items && s.items[AccessKey] != ""
  {
    Truthy(GetAccessToken(s))
  }

  function SetTokens(s: Storage, access: string, refresh: string): (r: Storage)
    ensures r.hasWindow == s.hasWindow
    ensures AccessKey in r.items && r.items[AccessKey] == access
    ensures RefreshKey in r.items && r.items[RefreshKey] == refresh
    ensures r.items.Keys == s.items.Keys + {AccessKey, RefreshKey}
    ensures forall k :: k != AccessKey && k != RefreshKey ==> SameEntry(r, s, k)
  {
    Storage(s.hasWindow, s.items[AccessKey := access][RefreshKey := refresh])
  }

  function SetUser(s: Storage, user: UserJson): (r: Storage)
    ensures r.hasWindow == s.hasWindow
    ensures UserKey in r.items && r.items[UserKey] == user
    ensures r.items.Keys == s.items.Keys + {UserKey}
    ensures forall k :: k != UserKey ==> SameEntry(r, s, k)
  {
    Storage(s.hasWindow, s.items[UserKey := user])
  }

  function ClearTokens(s: Storage): (r: Storage)
    ensures r.hasWindow == s.hasWindow
    ensures r.items.Keys == s.items.Keys - {AccessKey, RefreshKey, UserKey}
    ensures forall k :: k != AccessKey && k != RefreshKey && k != UserKey ==> SameEntry(r, s, k)
  {
    Storage(s.hasWindow, s.items - {AccessKey, RefreshKey, UserKey})
  }

  /** Without a window every read answers null, whatever is stored. */
  lemma NoWindowReadsNull(items: map<string, string>)
    ensures GetAccessToken(Storage(false, items)).None?
    ensures GetRefreshToken(Storage(false, items)).None?
    ensures GetUser(Storage(false, items)).None?
    ensures !IsLoggedIn(Storage(false, items))
  {
  }

  /** After `setTokens` the getters answer the new tokens and the cached
      profile is untouched. */
  lemma SetTokensThenGet(s: Storage, access: string, refresh: string)
    requires s.hasWindow
    ensures GetAccessToken(SetTokens(s, access, refresh)) == Some(access)
    ensures GetRefreshToken(SetTokens(s, access, refresh)) == Some(refresh)
    ensures GetUser(SetTokens(s, access, refresh)) == GetUser(s)
    ensures IsLoggedIn(SetTokens(s, access, refresh)) <==> access != ""
  {
    var r := SetTokens(s, access, refresh);
    assert SameEntry(r, s, UserKey);
  }

  /** After `clearTokens` every getter answers null and nobody is logged in. */
  lemma ClearThenGet(s: Storage)
    ensures GetAccessToken(ClearTokens(s)).None?
    ensures GetRefreshToken(ClearTokens(s)).None?
    ensures GetUser(ClearTokens(s)).None?
    ensures !IsLoggedIn(ClearTokens(s))
  {
  }

  /** The profile round-trips through the storage; the tokens are untouched. */
  lemma SetUserThenGet(s: Storage, user: UserJson)
    requires s.hasWindow
    ensures GetUser(SetUser(s, user)) == Some(user)
    ensures GetAccessToken(SetUser(s, user)) == GetAccessToken(s)
    ensures GetRefreshToken(SetUser(s, user)) == GetRefreshToken(s)
  {
    var r := SetUser(s, user);
    assert SameEntry(r, s, AccessKey);
    assert SameEntry(r, s, RefreshKey);
  }

  /** Logging out twice is the same as logging out once. */
  lemma ClearTokensIdempotent(s: Storage)
    ensures ClearTokens(ClearTokens(s)) == ClearTokens(s)
  {
    assert ClearTokens(ClearTokens(s)).items == ClearTokens(s).items;
  }
}

=== FILE: shell.dfy ===
/**
 The application shell (`Home`): the one-time authentication check, login
 and logout, the active page selection, the global toast queue, and which
 view is on screen. The browser storage is part of its state because logout
 clears it and the check reads it.
 */
module Shell {
  import opened Values
  import opened Envelopes
  import opened Schema
  import opened Session
  import opened Toasts
  import Login

  const Welcome := "Đăng nhập thành công! Chào mừng trở lại 🎉"
  const Goodbye := "Đã đăng xuất thành công"
  const DefaultPage := "dashboard"

  datatype Home = Home(authenticated: bool, activePage: string, checking: bool, toasts: seq<Toast>, storage: Storage)

  datatype PageId = DashboardPage | MotorbikesPage | RentalsPage | UsersPage | BlogsPage | PromotionsPage

  /** What is on screen: the spinner, the login form, or the layout with a page. */
  datatype View = Spinner | LoginScreen | Layout(page: PageId)

  /** The first render, before the check has run. */
  function Mount(st: Storage): (h: Home)
    ensures h.checking && !h.authenticated && h.activePage == DefaultPage && h.toasts == [] && h.storage == st
  {
    Home(false, DefaultPage, true, [], st)
  }

  /** The mount effect: authentication is read once from the session. */
  function CheckAuth(h: Home): (r: Home)
    ensures r.authenticated == IsLoggedIn(h.storage)
    ensures !r.checking
    ensures r == h.(authenticated := r.authenticated, checking := false)
  {
    h.(authenticated := IsLoggedIn(h.storage), checking := false)
  }

  function LoginSucceeded(h: Home, toastId: string): (r: Home)
    ensures r.authenticated
    ensures r.toasts == Add(h.toasts, toastId, Welcome, Some(Success))
    ensures r.activePage == h.activePage && r.storage == h.storage && r.checking == h.checking
  {
    h.(authenticated := true, toasts := Add(h.toasts, toastId, Welcome, Some(Success)))
  }

  function Logout(h: Home, toastId: string): (r: Home)
    ensures !r.authenticated && r.activePage == DefaultPage
    ensures r.storage == ClearTokens(h.storage)
    ensures r.toasts == Add(h.toasts, toastId, Goodbye, Some(Info))
    ensures r.checking == h.checking
  {
    h.(authenticated := false, activePage := DefaultPage, storage := ClearTokens(h.storage),
       toasts := Add(h.toasts, toastId, Goodbye, Some(Info)))
  }

  function Navigate(h: Home, page: string): (r: Home)
    ensures r.activePage == page
    ensures r.(activePage := h.activePage) == h
  {
    h.(activePage := page)
  }

  /** A page's `onToast`, forwarded to the queue. */
  function Notify(h: Home, toastId: string, message: string, kind: Kind): (r: Home)
    ensures r.toasts == Add(h.toasts, toastId, message, Some(kind))
    ensures r.(toasts := h.toasts) == h
  {
    h.(toasts := Add(h.toasts, toastId, message, Some(kind)))
  }

  /** A dismissed toast (its timer fired or it was closed). */
  function Dismiss(h: Home, toastId: string): (r: Home)
    ensures r.toasts == Remove(h.toasts, toastId)
    ensures r.(toasts := h.toasts) == h
  {
    h.(toasts := Remove(h.toasts, toastId))
  }

  /** Submitting the login form inside the shell: the page decides, and the
      shell switches over only when `onLoginSuccess` was called. */
  function SubmitLogin(h: Home, f: Login.Form, reply: Reply<LoginData>, toastId: string): (r: Home)
    ensures r.storage == Login.Submit(f, h.storage, reply).storage
    ensures Login.Submit(f, h.storage, reply).admitted ==> r.authenticated && |r.toasts| == |h.toasts| + 1
    ensures !Login.Submit(f, h.storage, reply).admitted ==> r == h.(storage := r.storage)
  {
    var s := Login.Submit(f, h.storage, reply);
    var h' := h.(storage := s.storage);
    if s.admitted then LoginSucceeded(h', toastId) else h'
  }

  /** `renderPage`: six known ids; anything else shows the dashboard. */
  function RenderPage(page: string): (p: PageId)
    ensures p == MotorbikesPage <==> page == "motorbikes"
    ensures p == RentalsPage <==> page == "rentals"
    ensures p == UsersPage <==> page == "users"
    ensures p == BlogsPage <==> page == "blogs"
    ensures p == PromotionsPage <==> page == "promotions"
    ensures p == DashboardPage <==> page !in {"motorbikes", "rentals", "users", "blogs", "promotions"}
  {
    match page
    case "dashboard" => DashboardPage
    case "motorbikes" => MotorbikesPage
    case "rentals" => RentalsPage
    case "users" => UsersPage
    case "blogs" => BlogsPage
    case "promotions" => PromotionsPage
    case _ => DashboardPage
  }

  /** The id a sidebar entry navigates with. */
  function PageName(p: PageId): string {
    match p
    case DashboardPage => "dashboard"
    case MotorbikesPage => "motorbikes"
    case RentalsPage => "rentals"
    case UsersPage => "users"
    case BlogsPage => "blogs"
    case PromotionsPage => "promotions"
  }

  /** Navigating by a page's own id renders that page. */
  lemma RenderPageName(p: PageId)
    ensures RenderPage(PageName(p)) == p
  {
  }

  /** The rendered view: spinner while checking, login when signed out
      whatever page was selected, else the layout with the rendered page. */
  function ViewOf(h: Home): (v: View)
    ensures h.checking ==> v == Spinner
    ensures !h.checking && !h.authenticated ==> v == LoginScreen
    ensures !h.checking && h.authenticated ==> v == Layout(RenderPage(h.activePage))
  {
    if h.checking then Spinner
    else if !h.authenticated then LoginScreen
    else Layout(RenderPage(h.activePage))
  }

  /** After logout the login form shows, and the next login lands on the
      dashboard whatever page was open before. */
  lemma LogoutThenLogin(h: Home, logoutId: string, loginId: string)
    requires !h.checking
    ensures ViewOf(Logout(h, logoutId)) == LoginScreen
    ensures ViewOf(LoginSucceeded(Logout(h, logoutId), loginId)) == Layout(DashboardPage)
    ensures !IsLoggedIn(Logout(h, logoutId).storage)
  {
    ClearThenGet(h.storage);
  }

  /** A non-admin is turned away by the login form, but the tokens it wrote
      make the next page load's check let the user in. */
  lemma RejectedLoginSurvivesReload(h: Home, f: Login.Form, reply: Reply<LoginData>, toastId: string)
    requires h.storage.hasWindow && !h.checking && !h.authenticated
    requires Delivered(reply)
    requires reply.envelope.data.value.user.Some? && !Login.IsAdmin(reply.envelope.data.value.user.value)
    requires Truthy(Login.AccessOf(reply.envelope.data.value)) && Truthy(Login.RefreshOf(reply.envelope.data.value))
    ensures ViewOf(SubmitLogin(h, f, reply, toastId)) == LoginScreen
    ensures ViewOf(CheckAuth(Mount(SubmitLogin(h, f, reply, toastId).storage))) == Layout(DashboardPage)
  {
    Login.RejectedKeepsTokens(f, h.storage, reply);
  }

  /** With the corrected handler the same rejection leaves the session as it
      was, so a reload shows exactly what it showed before the attempt. */
  lemma GatedRejectionKeepsSession(st: Storage, f: Login.Form, reply: Reply<LoginData>)
    requires !Login.SubmitGated(f, st, reply).admitted
    ensures CheckAuth(Mount(Login.SubmitGated(f, st, reply).storage)) == CheckAuth(Mount(st))
  {
  }
}

=== FILE: strings.dfy ===
/**
 The string primitives the dashboard uses: `String.prototype.split` on a
 one-character separator, `Array.prototype.join`, and `String.prototype.trim`.
 */
module Strings {

  /** The characters `trim` removes: ECMAScript WhiteSpace and LineTerminator. */
  predicate IsSpace(c: char) {
    || c == ' ' || c == '\t' || c == '\n' || c == '\r'
    || c == '\U{000B}' || c == '\U{000C}' || c == '\U{00A0}' || c == '\U{1680}'
    || ('\U{2000}' <= c <= '\U{200A}')
    || c == '\U{2028}' || c == '\U{2029}' || c == '\U{202F}' || c == '\U{205F}'
    || c == '\U{3000}' || c == '\U{FEFF}'
  }

  /** Position of the first `c` in `s`. */
  function IndexOf(s: string, c: char): (i: nat)
    requires c in s
    ensures i < |s| && s[i] == c
    ensures c !in s[..i]
  {
    if s[0] == c then 0
    else
      var j := IndexOf(s[1..], c);
      assert s[..j + 1] == [s[0]] + s[1..][..j];
      j + 1
  }

  /** `s.split(c)`: the maximal `c`-free pieces between the separators. Like
      JavaScript, the empty string splits into one empty piece. */
  function Split(s: string, c: char): (parts: seq<string>)
    ensures |parts| >= 1
    ensures forall k :: 0 <= k < |parts| ==> c !in parts[k]
    decreases |s|
  {
    if c !in s then [s]
    else
      var i := IndexOf(s, c);
      [s[..i]] + Split(s[i + 1..], c)
  }

  /** `xs.join(sep)`. */
  function Join(xs: seq<string>, sep: string): string
  {
    if |xs| == 0 then ""
    else if |xs| == 1 then xs[0]
    else xs[0] + sep + Join(xs[1..], sep)
  }

  /** Splitting at a known first separator. */
  lemma SplitAtFirst(x: string, c: char, rest: string)
    requires c !in x
    ensures Split(x + [c] + rest, c) == [x] + Split(rest, c)
  {
    var s := x + [c] + rest;
    assert s[|x|] == c;
    var i := IndexOf(s, c);
    assert s[..|x|] == x;
    assert s[..i] == x;
    assert s[i + 1..] == rest;
  }

  /** A prefix glued to the front of a join lands in the first piece. */
  lemma PrefixJoin(pad: string, xs: seq<string>, sep: string)
    requires |xs| >= 1
    ensures pad + Join(xs, sep) == Join([pad + xs[0]] + xs[1..], sep)
  {
    var ys := [pad + xs[0]] + xs[1..];
    assert ys[1..] == xs[1..];
    if |xs| > 1 {
      assert pad + (xs[0] + sep + Join(xs[1..], sep)) == (pad + xs[0]) + sep + Join(xs[1..], sep);
    }
  }

  /** Joining with a padded separator is the first part, the separator's
      first character, and the join of the rest with the pad moved onto the
      second part. */
  lemma JoinPaddedStep(xs: seq<string>, c: char, pad: string)
    requires |xs| > 1
    ensures Join(xs, [c] + pad) == xs[0] + [c] + Join([pad + xs[1]] + xs[2..], [c] + pad)
  {
    var sep := [c] + pad;
    var tail := xs[1..];
    assert Join(xs, sep) == xs[0] + sep + Join(tail, sep);
    PrefixJoin(pad, tail, sep);
    assert [pad + tail[0]] + tail[1..] == [pad + xs[1]] + xs[2..];
    SeparatorSplit(xs[0], c, pad, Join(tail, sep));
  }

  /** A padded separator between two texts is its first character followed
      by the pad on the second text. */
  lemma SeparatorSplit(a: string, c: char, pad: string, b: string)
    ensures a + ([c] + pad) + b == a + [c] + (pad + b)
  {
  }

  /** Moving a pad free of `c` onto the second part keeps every part free
      of `c`. */
  lemma PaddedStaysFree(xs: seq<string>, c: char, pad: string)
    requires |xs| > 1
    requires forall k :: 0 <= k < |xs| ==> c !in xs[k]
    requires c !in pad
    ensures var ys := [pad + xs[1]] + xs[2..];
            forall k :: 0 <= k < |ys| ==> c !in ys[k]
  {
    var ys := [pad + xs[1]] + xs[2..];
    forall k | 0 <= k < |ys| ensures c !in ys[k] {
      if k == 0 {
        assert ys[0] == pad + xs[1];
      } else {
        assert ys[k] == xs[k + 1];
      }
    }
  }

  /** Splitting a list joined with `c` followed by `pad` gives back the first
      element and every later element with `pad` in front of it. */
  lemma {:induction false} SplitJoinPadded(xs: seq<string>, c: char, pad: string)
    requires |xs| >= 1
    requires forall k :: 0 <= k < |xs| ==> c !in xs[k]
    requires c !in pad
    ensures |Split(Join(xs, [c] + pad), c)| == |xs|
    ensures Split(Join(xs, [c] + pad), c)[0] == xs[0]
    ensures forall k :: 1 <= k < |xs| ==> Split(Join(xs, [c] + pad), c)[k] == pad + xs[k]
    decreases |xs|
  {
    var sep := [c] + pad;
    if |xs| > 1 {
      var ys := [pad + xs[1]] + xs[2..];
      JoinPaddedStep(xs, c, pad);
      SplitAtFirst(xs[0], c, Join(ys, sep));
      PaddedStaysFree(xs, c, pad);
      SplitJoinPadded(ys, c, pad);
      PadShift(xs, pad, Split(Join(ys, sep), c));
    }
  }

  /** Putting the first part in front of the padded parts of the rest gives
      the first part followed by the padded parts of the whole list. */
  lemma PadShift(xs: seq<string>, pad: string, r': seq<string>)
    requires |xs| > 1
    requires |r'| == |xs| - 1
    requires r'[0] == pad + xs[1]
    requires forall k :: 1 <= k < |r'| ==> r'[k] == pad + ([pad + xs[1]] + xs[2..])[k]
    ensures |[xs[0]] + r'| == |xs|
    ensures ([xs[0]] + r')[0] == xs[0]
    ensures forall k :: 1 <= k < |xs| ==> ([xs[0]] + r')[k] == pad + xs[k]
  {
    var r := [xs[0]] + r';
    var ys := [pad + xs[1]] + xs[2..];
    forall k | 1 <= k < |xs|
      ensures r[k] == pad + xs[k]
    {
      assert r[k] == r'[k - 1];
      if k > 1 {
        assert ys[k - 1] == xs[k];
      }
    }
  }

  /** Join with the bare separator undoes Split: no input text is lost. */
  lemma {:induction false} JoinSplit(s: string, c: char)
    ensures Join(Split(s, c), [c]) == s
    decreases |s|
  {
    if c in s {
      var i := IndexOf(s, c);
      var rest := Split(s[i + 1..], c);
      JoinSplit(s[i + 1..], c);
      assert Split(s, c) == [s[..i]] + rest;
      assert ([s[..i]] + rest)[1..] == rest;
      assert s == s[..i] + [c] + s[i + 1..];
    }
  }

  /** Split undoes join with the bare separator when no element holds it. */
  lemma SplitJoin(xs: seq<string>, c: char)
    requires |xs| >= 1
    requires forall k :: 0 <= k < |xs| ==> c !in xs[k]
    ensures Split(Join(xs, [c]), c) == xs
  {
    SplitJoinPadded(xs, c, "");
    assert [c] + "" == [c];
    var r := Split(Join(xs, [c]), c);
    forall k | 0 <= k < |xs| ensures r[k] == xs[k] {
      if k > 0 {
        assert "" + xs[k] == xs[k];
      }
    }
  }

  /** `s.trimStart()`. */
  function TrimStart(s: string): (r: string)
    ensures |r| <= |s|
    ensures forall c :: c in r ==> c in s
    ensures |r| == 0 || !IsSpace(r[0])
    ensures r == s[|s| - |r|..]
    ensures forall k {:trigger IsSpace(s[k])} :: 0 <= k < |s| - |r| ==> IsSpace(s[k])
  {
    if |s| > 0 && IsSpace(s[0]) then TrimStart(s[1..]) else s
  }

  /** `s.trimEnd()`. */
  function TrimEnd(s: string): (r: string)
    ensures |r| <= |s|
    ensures forall c :: c in r ==> c in s
    ensures |r| == 0 || !IsSpace(r[|r| - 1])
    ensures r == s[..|r|]
    ensures forall k {:trigger IsSpace(s[k])} :: |r| <= k < |s| ==> IsSpace(s[k])
  {
    if |s| > 0 && IsSpace(s[|s| - 1]) then TrimEnd(s[..|s| - 1]) else s
  }

  /** Text with no white space at either end. */
  predicate Trimmed(s: string) {
    |s| == 0 || (!IsSpace(s[0]) && !IsSpace(s[|s| - 1]))
  }

  /** `s.trim()`: the longest middle part of `s` that starts and ends with a
      non-space character; only spaces are removed around it. */
  function Trim(s: string): (r: string)
    ensures Trimmed(r)
    ensures |r| <= |s|
    ensures forall c :: c in r ==> c in s
    ensures (exists k :: 0 <= k < |s| && !IsSpace(s[k])) ==> |r| > 0
    ensures Trimmed(s) ==> r == s
  {
    var a := TrimStart(s);
    var r := TrimEnd(a);
    assert |r| > 0 ==> r[0] == a[0];
    r
  }

  /** `trim` keeps one contiguous run of `s`: the one that starts right
      after the white space `trimStart` removes. */
  lemma TrimRun(s: string, r: string)
    requires r == Trim(s)
    ensures |s| - |TrimStart(s)| + |r| <= |s|
    ensures forall k :: 0 <= k < |r| ==> r[k] == s[|s| - |TrimStart(s)| + k]
  {
    var a := TrimStart(s);
    assert r == TrimEnd(a);
    PrefixOfSuffix(s, a, r);
  }

  /** A prefix `r` of a suffix `a` of `s` sits in `s` where `a` starts. */
  lemma PrefixOfSuffix(s: string, a: string, r: string)
    requires |a| <= |s| && a == s[|s| - |a|..]
    requires |r| <= |a| && r == a[..|r|]
    ensures forall k :: 0 <= k < |r| ==> r[k] == s[|s| - |a| + k]
  {
    forall k | 0 <= k < |r|
      ensures r[k] == s[|s| - |a| + k]
    {
      assert r[k] == a[k];
      assert a[k] == s[|s| - |a|..][k];
    }
  }

  /** Everything `trim` removes, at either end, is white space. */
  lemma TrimDropsSpace(s: string, r: string)
    requires r == Trim(s)
    ensures forall k :: 0 <= k < |s| - |TrimStart(s)| ==> IsSpace(s[k])
    ensures forall k :: |s| - |TrimStart(s)| + |r| <= k < |s| ==> IsSpace(s[k])
  {
    var a := TrimStart(s);
    assert r == TrimEnd(a);
    TrailingSpace(s, a, r, |s| - |a|);
  }

  /** What `TrimEnd` drops from the suffix `a` of `s` is white space of `s`. */
  lemma TrailingSpace(s: string, a: string, r: string, i: nat)
    requires i + |a| == |s| && a == s[i..]
    requires |r| <= |a|
    requires forall k :: |r| <= k < |a| ==> IsSpace(a[k])
    ensures forall k :: i + |r| <= k < |s| ==> IsSpace(s[k])
  {
    forall k | i + |r| <= k < |s|
      ensures IsSpace(s[k])
    {
      assert s[k] == a[k - i];
    }
  }

  /** Leading white space is removed in front of trimmed text. */
  lemma TrimSpaced(pad: string, x: string)
    requires forall k :: 0 <= k < |pad| ==> IsSpace(pad[k])
    requires Trimmed(x)
    ensures Trim(pad + x) == x
    decreases |pad|
  {
    if |pad| > 0 {
      assert (pad + x)[1..] == pad[1..] + x;
      TrimSpaced(pad[1..], x);
    } else {
      assert pad + x == x;
    }
  }
}

=== FILE: toasts.dfy ===
/**
 The global toast queue of the `useToast` hook: notifications are appended at
 the end and removed by id. Ids come from the clock and a random suffix in the
 code; here the caller supplies them.
 */
module Toasts {
  import opened Values

  datatype Kind = Success | Error | Warning | Info

  datatype Toast = Toast(id: string, message: string, kind: Kind)

  /** `addToast(message, type = 'info')`. */
  function Add(q: seq<Toast>, id: string, message: string, kind: Option<Kind>): (r: seq<Toast>)
    ensures |r| == |q| + 1
    ensures r[..|q|] == q
    ensures r[|q|].id == id && r[|q|].message == message
    ensures kind.Some? ==> r[|q|].kind == kind.value
    ensures kind.None? ==> r[|q|].kind == Info
  {
    q + [Toast(id, message, kind.GetOr(Info))]
  }

  /** `removeToast(id)`: keep every toast with another id, in order. */
  function Remove(q: seq<Toast>, id: string): (r: seq<Toast>)
    ensures |r| <= |q|
    ensures forall t :: t in r <==> t in q && t.id != id
    ensures forall t :: t in r ==> multiset(r)[t] == multiset(q)[t]
  {
    if |q| == 0 then []
    else
      assert q == [q[0]] + q[1..];
      (if q[0].id == id then [] else [q[0]]) + Remove(q[1..], id)
  }

  predicate HasId(q: seq<Toast>, id: string) {
    exists k :: 0 <= k < |q| && q[k].id == id
  }

  /** Removing from a concatenation removes from each part. */
  lemma {:induction false} RemoveAppend(a: seq<Toast>, b: seq<Toast>, id: string)
    ensures Remove(a + b, id) == Remove(a, id) + Remove(b, id)
    decreases |a|
  {
    if |a| > 0 {
      assert (a + b)[1..] == a[1..] + b;
      RemoveAppend(a[1..], b, id);
    } else {
      assert a + b == b;
    }
  }

  /** Removing an id that no toast carries leaves the queue as it was. */
  lemma {:induction false} RemoveAbsent(q: seq<Toast>, id: string)
    requires !HasId(q, id)
    ensures Remove(q, id) == q
    decreases |q|
  {
    if |q| > 0 {
      assert q[0].id != id;
      assert !HasId(q[1..], id) by {
        forall k | 0 <= k < |q[1..]| ensures q[1..][k].id != id {
          assert q[1..][k] == q[k + 1];
        }
      }
      assert Remove(q, id) == [q[0]] + Remove(q[1..], id);
      RemoveAbsent(q[1..], id);
      assert q == [q[0]] + q[1..];
    }
  }

  /** With a fresh id, a toast that is added and then dismissed leaves no trace. */
  lemma AddThenRemove(q: seq<Toast>, id: string, message: string, kind: Option<Kind>)
    requires !HasId(q, id)
    ensures Remove(Add(q, id, message, kind), id) == q
  {
    var t := Toast(id, message, kind.GetOr(Info));
    RemoveAppend(q, [t], id);
    RemoveAbsent(q, id);
    assert Remove([t], id) == [];
  }

  /** Dismissing is idempotent. */
  lemma RemoveTwice(q: seq<Toast>, id: string)
    ensures Remove(Remove(q, id), id) == Remove(q, id)
  {
    RemoveAbsent(Remove(q, id), id);
  }
}

=== FILE: users.dfy ===
/**
 The user page: the user list with a search box, an edit modal holding the
 user being edited and a four-field form, and the delete confirmation.
 There is no create; the email is shown but never sent.
 */
module Users {
  import opened Values
  import opened Envelopes
  import opened Schema
  import Api
  import Crud
  import Pagination
  import Toasts

  const Updated := "Cập nhật người dùng thành công!"
  const UpdateFailed := "Cập nhật thất bại"
  const DefaultRole := "CUSTOMER"

  const EmptyForm := UserForm("", "", "", DefaultRole)

  const Texts := Crud.Texts("", "", Updated, UpdateFailed, ErrorOnly, "Xóa người dùng thành công!")

  datatype State = State(
    users: seq<UserRecord>, total: nat, search: string, page: int,
    editModal: Option<UserRecord>, editForm: UserForm, saving: bool, deleteId: Option<string>)

  function Initial(): State {
    State([], 0, "", 1, None, EmptyForm, false, None)
  }

  /** `loadUsers`'s request: page, limit and search are passed and dropped. */
  function LoadCall(s: State): (c: Api.Call)
    ensures c == Api.Call(Api.Collection(Api.Users), Api.GET, None)
  {
    Api.UsersGetAll(Some(s.page), Some(Pagination.PageSize), NonEmpty(s.search))
  }

  function SetSearch(s: State, text: string): (r: State)
    ensures r.search == text && r.page == 1
    ensures r.(search := s.search, page := s.page) == s
  {
    s.(search := text, page := 1)
  }

  /** Typing in the search box moves back to page 1 but asks the server for
      the same list. */
  lemma SearchNotSent(s: State, text: string)
    ensures LoadCall(SetSearch(s, text)) == LoadCall(s)
    ensures SetSearch(s, text).page == 1
  {
  }

  /** `Math.ceil(total / limit)`; the pager is drawn when this exceeds 1,
      that is, exactly when the users do not fit on one page. */
  function TotalPages(s: State): (n: nat)
    ensures n * Pagination.PageSize >= s.total
    ensures n > 0 ==> (n - 1) * Pagination.PageSize < s.total
    ensures n > 1 <==> s.total > Pagination.PageSize
  {
    Pagination.TotalPages(s.total)
  }

  function Load(s: State, reply: Reply<Listing<UserRecord>>): (r: State)
    ensures !Delivered(reply) ==> r == s
    ensures Delivered(reply) ==>
              r.users == reply.envelope.data.value.items.GetOr([])
              && r.total == CountOr(reply.envelope.data.value.total, 0)
    ensures r.(users := s.users, total := s.total) == s
  {
    if Delivered(reply) then
      var d := reply.envelope.data.value;
      s.(users := d.items.GetOr([]), total := CountOr(d.total, 0))
    else s
  }

  /** `openEdit(user)`: missing fields become empty, a missing role CUSTOMER. */
  function FormOf(u: UserRecord): (f: UserForm)
    ensures f.name == OrElse(u.name, "") && f.phone == OrElse(u.phone, "")
    ensures f.address == OrElse(u.address, "")
    ensures f.role == OrElse(u.role, DefaultRole) && f.role != ""
  {
    UserForm(OrElse(u.name, ""), OrElse(u.phone, ""), OrElse(u.address, ""), OrElse(u.role, DefaultRole))
  }

  function OpenEdit(s: State, u: UserRecord): (r: State)
    ensures r.editModal == Some(u) && r.editForm == FormOf(u)
    ensures r.(editModal := s.editModal, editForm := s.editForm) == s
  {
    s.(editModal := Some(u), editForm := FormOf(u))
  }

  function Close(s: State): (r: State)
    ensures r.editModal.None? && r.(editModal := s.editModal) == s
  {
    s.(editModal := None)
  }

  /** `handleUpdate`: without a user in the modal nothing happens; otherwise
      the form goes to the user's item path as it is, with no required field. */
  function Update(s: State, reply: Reply<UserRecord>): (r: Crud.Step<State>)
    ensures s.editModal.None? ==> r.state == s && r.effects == []
    ensures s.editModal.Some? ==>
              |r.effects| >= 2
              && r.effects[0] == Crud.Send(Api.Update(Api.Users, s.editModal.value.id, Api.UserBody(s.editForm)))
              && !r.state.saving
    ensures s.editModal.Some? && Succeeded(reply) ==>
              r.state.editModal.None? && r.effects == r.effects[..1] + [Crud.Notify(Updated, Toasts.Success), Crud.Reload]
    ensures !Succeeded(reply) ==> r.state.editModal == s.editModal && Crud.Reload !in r.effects
    ensures s.editModal.Some? && reply.TransportError? ==> r.effects[1] == Crud.Notify(Crud.Unreachable, Toasts.Error)
    ensures s.editModal.Some? && reply.Received? && !reply.envelope.success ==>
              r.effects[1] == Crud.Notify(FailureText(ErrorOnly, reply.envelope, UpdateFailed), Toasts.Error)
    ensures r.state.(editModal := s.editModal, saving := s.saving) == s
  {
    match s.editModal
    case None => Crud.Step(s, [])
    case Some(u) =>
      var sent := Crud.Send(Api.Update(Api.Users, u.id, Api.UserBody(s.editForm)));
      var done := s.(saving := false);
      match reply
      case TransportError => Crud.Step(done, [sent, Crud.Notify(Crud.Unreachable, Toasts.Error)])
      case Received(env) =>
        if env.success then Crud.Step(done.(editModal := None), [sent, Crud.Notify(Updated, Toasts.Success), Crud.Reload])
        else Crud.Step(done, [sent, Crud.Notify(FailureText(ErrorOnly, env, UpdateFailed), Toasts.Error)])
  }

  /** Opening a user and saving untouched sends back exactly the fields the
      record had, with CUSTOMER for a missing role, to that user's path. */
  lemma EditUnchanged(s: State, u: UserRecord, reply: Reply<UserRecord>)
    ensures var body := Update(OpenEdit(s, u), reply).effects[0].call.body.value;
            body.UserBody? && body.user.role == OrElse(u.role, DefaultRole)
            && (Truthy(u.name) ==> body.user.name == u.name.value)
            && (Truthy(u.phone) ==> body.user.phone == u.phone.value)
            && (Truthy(u.address) ==> body.user.address == u.address.value)
    ensures Update(OpenEdit(s, u), reply).effects[0].call.endpoint == Api.Item(Api.Users, u.id)
  {
  }

  /** A failed update leaves the modal and the form as they were, so saving
      again sends the same request. */
  lemma UpdateRetry(s: State, first: Reply<UserRecord>, second: Reply<UserRecord>)
    requires !Succeeded(first)
    ensures Update(Update(s, first).state, second).effects == Update(s, second).effects
  {
  }

  function AskDelete(s: State, id: string): (r: State)
    ensures r.deleteId == Some(id) && r.(deleteId := s.deleteId) == s
  {
    s.(deleteId := Some(id))
  }

  /** `handleDelete` on this page. */
  function ConfirmDelete(s: State, reply: Reply<UserRecord>): (r: Crud.Step<State>)
    ensures r.state.(deleteId := s.deleteId) == s
    ensures !Truthy(s.deleteId) ==> r.state == s && r.effects == []
    ensures Truthy(s.deleteId) ==> |r.effects| >= 2 && r.effects[0] == Crud.Send(Api.Delete(Api.Users, s.deleteId.value))
    ensures Truthy(s.deleteId) && Succeeded(reply) ==> r.state.deleteId.None? && Crud.Reload in r.effects
    ensures !Succeeded(reply) ==> r.state == s
  {
    var d := Crud.ConfirmDelete(Api.Users, Texts, s.deleteId, reply);
    Crud.Step(s.(deleteId := d.deleteId), d.effects)
  }
}

=== FILE: values.dfy ===
/**
 The JavaScript value conventions the dashboard relies on: optional values
 (`undefined` / `null`), the truthiness of strings, and the `||`, `??` and
 `x || undefined` idioms used to pick defaults.
 */
module Values {

  /** A value that may be `undefined` or `null` on the JavaScript side. */
  datatype Option<+T> = None | Some(value: T) {

    /** `x ?? d`: the value when present, otherwise the default. */
    function GetOr(default: T): T {
      match this
      case Some(v) => v
      case None => default
    }
  }

  /** JavaScript truthiness of an optional string: present and not "". */
  predicate Truthy(s: Option<string>) {
    s.Some? && s.value != ""
  }

  /** `a || b` on optional strings: `a` when truthy, otherwise `b` as it is. */
  function Or(a: Option<string>, b: Option<string>): (r: Option<string>)
    ensures Truthy(r) <==> Truthy(a) || Truthy(b)
    ensures Truthy(a) ==> r == a
    ensures !Truthy(a) ==> r == b
  {
    if Truthy(a) then a else b
  }

  /** `a || "default"`: the string when truthy, otherwise the default. */
  function OrElse(a: Option<string>, default: string): (r: string)
    ensures r == default || (Truthy(a) && r == a.value)
    ensures Truthy(a) ==> r == a.value
    ensures default != "" ==> r != ""
  {
    if Truthy(a) then a.value else default
  }

  /** `s || undefined`: an empty form field is dropped from a payload. */
  function NonEmpty(s: string): (r: Option<string>)
    ensures r.None? <==> s == ""
    ensures r.Some? ==> r.value == s
    ensures Truthy(r) <==> s != ""
    ensures OrElse(r, "") == s
  {
    if s == "" then None else Some(s)
  }

  /** `OrElse` and `NonEmpty` are inverse on form text: a field that a payload
      drops comes back as "" and a kept field comes back unchanged. */
  lemma OrElseNonEmpty(s: string)
    ensures OrElse(NonEmpty(s), "") == s
  {
  }
}
